=== FILE: README.md ===
# Voice-agent bot core, modelled in Dafny

The bot (`pipecat-agent/bot.py`) is a Pipecat voice and video agent. It
joins a call, listens to the caller, and answers with synthesized speech.
Optionally it also drives a talking avatar (Akool or HeyGen) and lets the
language model see the caller's camera. Most of the file is wiring. This
project models the small sequential pieces inside it that follow exact
rules, and proves what those rules guarantee:

- **Background mixer** (`BackgroundTTSMixer`). A looping background
  track is read through a wrapping cursor and mixed, scaled by a gain, into
  synthesized speech. `audioop.mul`/`add` are modelled for sample width 2
  (`audioop.dfy`, `background_mixer.dfy`).
- **Resilient speech-synthesis connect** (`ResilientCartesiaTTSService`).
  The constructor clamps its settings. The bounded reconnect loop uses
  capped exponential backoff with jitter (`resilient_connect.dfy`).
- **Sentence flush buffer.** `_split_flushable` plus the pending-text
  handling of the Akool processor (`sentence_flush.dfy`).
- **One-way avatar degrade.** Shared by Akool's `_disable_avatar` and
  HeyGen's `_enter_audio_only_fallback` (`avatar_fallback.dfy`). It is used
  by the Akool frame processor (`akool_video.dfy`) and by the HeyGen frame
  processor and its audio chunk loop (`heygen_video.dfy`).
- **Camera ingest** (`ingest_user_image`). A frame-rate gate, an RGB filter
  and truncation to `w*h*3` bytes (`vision_ingest.dfy`).
- **Vision context** (`vision_context.dfy`). Whether to attach the latest
  camera snapshot to a user turn, and what is appended. How a completion
  request is routed to the vision model. How a message is flattened for the
  transcript log.
- **Secondary pieces.**
  - Caller-memory seeding (`caller_memory.dfy`).
  - The session-body parsers for dial-in, dial-out and session mode
    (`request_body.dfy`).
  - The size-capped download (`background_download.dfy`).

Shared vocabulary lives in three helper modules:

- `prelude.dfy`: bytes, `Option`, joining and filtering sequences.
- `pytext.dfy`: Python's `isspace`, `strip`, `lower`, `in` and `str(int)`.
- `pyjson.dfy`: decoded JSON values with Python truthiness, `dict.get`,
  `a or b` chains and `str()`.

Things the code cannot know are parameters:

- the outcome of a network call;
- the event-loop clock;
- a random jitter draw;
- whether JPEG encoding succeeds;
- how task scheduling goes.

Each lock-guarded section is one atomic transition.

With no sentence boundary, a pending buffer longer than 400 characters
is cut at 400: the first 400 characters are sent and the rest stays
pending (`pipecat-agent/bot.py:2547-2548`).

## Model

| member | source | states |
|---|---|---|
| BackgroundMixer.NextBg | pipecat-agent/bot.py:156-167 | `n <= 0` gives no bytes. An empty track gives `n` zero bytes. Otherwise the result is exactly `n` bytes, byte `i` being `bg[(pos+i) mod len(bg)]`, compared against the independent reference `Cyclic`. The cursor ends at `(pos+n-1) mod len + 1`, so it stays within `[0, len(bg)]` and wraps to 0 only when it reaches the end |
| BackgroundMixer.CyclicContinues | pipecat-agent/bot.py:156-167 | Looping is seamless. A read of `a` bytes followed by a read of `b` bytes from the advanced cursor gives the same bytes as one read of `a+b` |
| BackgroundMixer.FreshMixerReadsFromStart | pipecat-agent/bot.py:150-154 | A new mixer starts at the beginning of the track. Its first frame of up to twice the track length is mixed with the track played twice over, cut to the frame length |
| BackgroundMixer.AbcdExample | pipecat-agent/bot.py:156-167 | A four-byte track read for ten bytes yields ABCDABCDAB |
| BackgroundMixer.ProcessFrame | pipecat-agent/bot.py:169-182 | The frame is pushed exactly once, in its direction. Bypass when the gain is not positive, the frame is not downstream speech, or the audio is empty: the frame is unchanged and the cursor does not move. When mixing, the cursor advances by the frame length even if `audioop` then raises. An odd length leaves the frame unchanged. Otherwise every sample is speech plus scaled background, clipped. `num_frames` becomes `int(len/(channels*2))`, except that zero channels leaves it as it was (the `ZeroDivisionError` is caught) |
| Audioop.Mul | pipecat-agent/bot.py:176 | `audioop.mul(bg, 2, gain)` raises exactly for an odd byte count. Otherwise it keeps the length and scales each 16-bit sample with clipping |
| Audioop.Add | pipecat-agent/bot.py:177 | `audioop.add(a, b, 2)` raises for an odd or mismatched length. Otherwise each sample is the clipped sum |
| Audioop.DecodeEncode | pipecat-agent/bot.py:176-177 | Writing a 16-bit sample as little-endian bytes and reading it back gives the sample |
| ResilientConnect.Clamp | pipecat-agent/bot.py:281-293 | The clamped settings have `initial >= 0.1`, `max >= initial` and `attempts >= 1`. Each value that already meets its bound is kept, and each that does not is raised to exactly its floor: 0.1, the clamped initial delay, and 1 |
| ResilientConnect.DelaysGrowToCap | pipecat-agent/bot.py:341-342 | Base delays never shrink, start at `initial`, and never exceed the cap |
| ResilientConnect.DoublingStep | pipecat-agent/bot.py:342 | The loop's `delay = min(delay*2, max)` equals the closed form `min(initial*2^k, max)` for the next attempt |
| ResilientConnect.DefaultDelays | pipecat-agent/bot.py:284-286 | With the defaults, at most 6 attempts are made and the base delays are 0.5, 1, 2, 4, 8 and 8 seconds |
| ResilientConnect.JitterBounds | pipecat-agent/bot.py:341 | `delay + uniform(0, delay*0.5)` lies in `[delay, 1.5*delay]` |
| ResilientConnect.Reported | pipecat-agent/bot.py:345 | A non-empty last error is reported as it is, and an empty one is replaced by the default message, so the reported error is never empty |
| ResilientConnect.ConnectWebsocket | pipecat-agent/bot.py:295-347 | The fast path makes no attempt. Otherwise a return means the socket was seen open on the last attempt made, after every earlier attempt failed. At most `max_attempts` attempts are made. Failure exactly when no attempt succeeds; it then reports `max_attempts` and the last error. There is one jittered sleep after every failed attempt, including the last one, each within `[base, 1.5*base]` of that attempt's base delay |
| SentenceFlush.LastBoundary | pipecat-agent/bot.py:2544 | The maximum of the four `rfind`s: the index of a boundary character after which none follows, or -1 |
| SentenceFlush.SplitFlushable | pipecat-agent/bot.py:2540-2550 | `flush + rest == s`, and `rest` holds no boundary. With a boundary, `flush` runs up to and including the last one. Without one, `flush` is `s[:400]` when `len(s) > 400` and empty otherwise |
| SentenceFlush.OnToken | pipecat-agent/bot.py:2651-2662 | The token is appended and the cut-off prefix plus the new pending text spell the old pending text plus the token. The cut, made by `_split_flushable` (bot.py:2540-2550), falls just after the last boundary of that text; without one, a text over 400 characters is cut at 400 and a shorter one is kept whole. The pending text holds no boundary. The prefix is sent exactly when it is not blank |
| SentenceFlush.OnResponseEnd | pipecat-agent/bot.py:2664-2673 | The remainder is sent exactly when it is not blank, and the pending text becomes empty in every case |
| SentenceFlush.FeedKeepsText | pipecat-agent/bot.py:2651-2662 | Over any token stream no text is lost or reordered: all cut-off prefixes followed by the pending text equal the initial pending text followed by every token |
| SentenceFlush.FeedPendingHasNoBoundary | pipecat-agent/bot.py:2654-2655 | After at least one token, the pending text never holds a sentence boundary |
| SentenceFlush.HelloWorldExample | pipecat-agent/bot.py:2540-2672 | "Hello", " world.", " How are you": "Hello world." is sent on the second token, and " How are you" is sent at the end of the response |
| AvatarFallback.Disable | pipecat-agent/bot.py:2552-2579 | After a trigger the avatar is disabled. A trigger on a disabled avatar changes nothing and schedules nothing. The first trigger stores the stripped reason. A shutdown task is scheduled exactly by a first trigger when none is scheduled yet and scheduling did not fail outright |
| AvatarFallback.DisableIdempotent | pipecat-agent/bot.py:1720-1753 | A second trigger, with any reason or scheduling outcome, leaves the state as the first one left it and schedules nothing |
| AvatarFallback.RunFromActive | pipecat-agent/bot.py:2552-2579 | From an active avatar, any run of triggers schedules at most one shutdown. It keeps the first trigger's reason and leaves the avatar disabled |
| AvatarFallback.RunWhileDisabled | pipecat-agent/bot.py:1720-1722 | Once disabled, any run of triggers leaves the state exactly as it was |
| AkoolVideo.DisableAvatar | pipecat-agent/bot.py:2552-2579 | After `_disable_avatar` the avatar is disabled, no other field changes, and an already disabled avatar is untouched |
| AkoolVideo.SendText | pipecat-agent/bot.py:2488-2526 | Blank text, or no room, sends nothing and changes nothing. Otherwise the stripped text is published. A raise degrades the avatar with the reason `send_text failed: ...` (bot.py:2645-2647); a send that goes through changes nothing. The pending buffer is never touched |
| AkoolVideo.StopSession | pipecat-agent/bot.py:2344-2378 | Leaving the room resets the camera-publishing state and keeps the degrade state and the pending text |
| AkoolVideo.Step | pipecat-agent/bot.py:2581-2677 | Every frame is pushed on exactly once, unchanged. A degraded avatar stays degraded. While degraded, a non-lifecycle frame changes nothing and has no effect |
| AkoolVideo.DisabledIsPermanent | pipecat-agent/bot.py:2581-2677 | No frame and no outcome turns a degraded avatar back on |
| AkoolVideo.StartFramePath | pipecat-agent/bot.py:2584-2600 | A start on an active avatar with no session marks the transport ready. It starts the session when that succeeds. When starting raises, it degrades the avatar with the reason `start failed: ...` and starts nothing |
| AkoolVideo.RoomUnobservedWhileDisabled | pipecat-agent/bot.py:2584-2625 | On a degraded avatar, whether a room is up changes neither what a frame pushes nor what it does. The resulting states differ only in the room flag |
| AkoolVideo.TokenPath | pipecat-agent/bot.py:2651-2662 | On an active avatar, a language-model token leaves `rest` of the split of pending text plus token as the pending text. A blank prefix sends nothing. A non-blank prefix is sent stripped when a room is up |
| AkoolVideo.ResponseEndPath | pipecat-agent/bot.py:2664-2673 | On an active avatar, the end of a response empties the pending text even when the send raised. It sends the pending text stripped only when that text is not blank |
| AkoolVideo.RunForwardsEverything | pipecat-agent/bot.py:2581-2677 | Over any run from the initial state, the frames come out exactly as they went in. At most one shutdown task is scheduled. The shutdown flag is set exactly when one was scheduled |
| AkoolVideo.StepShutdownCount | pipecat-agent/bot.py:2552-2579 | One frame schedules a shutdown exactly when it moves the shutdown flag from unset to set |
| HeyGenVideo.Step | pipecat-agent/bot.py:1822-1854 | Audio-only: every frame passes through and nothing changes. A finished send task, or speech while the websocket is not connected, degrades the avatar. A frame is either pushed on or handed to the avatar, never both. The avatar never sees end-of-user-speech |
| HeyGenVideo.AudioOnlyIsPassthrough | pipecat-agent/bot.py:1822-1826 | Once in audio-only mode, any sequence of frames is forwarded unchanged and the state stays as it is |
| HeyGenVideo.SendChunks | pipecat-agent/bot.py:1799-1806 | Sent chunks followed by the leftover equal the old buffer followed by the new audio. Every chunk is exactly the chunk size. The loop stops at the first failed `agent_speak`, and otherwise the leftover is shorter than one chunk |
| HeyGenVideo.ChunkCount | pipecat-agent/bot.py:1799-1806 | With no failure, the number of chunks is `(buffered + new) div chunk_size` and the leftover is the remainder |
| VisionIngest.ClampFps | pipecat-agent/bot.py:1927 | A positive rate is kept; anything else becomes 3 |
| VisionIngest.MinInterval | pipecat-agent/bot.py:2457 | The minimum spacing `1/fps` is in `(0, 1]` |
| VisionIngest.Ingest | pipecat-agent/bot.py:2437-2486 | The early gates change nothing. A frame is throttled exactly when `last_sent != 0` and it is too soon, and only the throttle keeps the old timestamp. Every later outcome stamps `now` before the format and size checks. A capture is RGB and exactly `w*h*3` leading bytes of a long enough image. A frame passing every check is captured when a track is live |
| VisionIngest.EnsureTrack | pipecat-agent/bot.py:2380-2430 | A live track stays live. No track is published for a non-positive dimension. Otherwise the track becomes live exactly when publishing goes through |
| VisionIngest.AcceptedFramesAreSpaced | pipecat-agent/bot.py:2457-2460 | Two accepted frames are at least `1/fps` apart, unless the earlier stamp was 0.0 |
| VisionIngest.CaptureLength | pipecat-agent/bot.py:2471-2474 | An image shorter than `w*h*3` bytes is never captured |
| VisionContext.ParseAttachMode | pipecat-agent/bot.py:830-832 | The mode is `never` or `auto` exactly when the stripped, lower-cased setting says so; anything else means `always` |
| VisionContext.ParseModeName | pipecat-agent/bot.py:830-832 | Every mode name reads back as that mode |
| VisionContext.ShouldAttach | pipecat-agent/bot.py:2710-2748 | `never` never attaches and `always` always does. `auto` attaches exactly when the stripped, lower-cased text contains one of the 23 keywords |
| VisionContext.ShortTextNeverAttaches | pipecat-agent/bot.py:2718-2748 | In `auto`, a text shorter than three characters after normalizing never attaches |
| VisionContext.KeywordAttaches | pipecat-agent/bot.py:2716-2748 | In `auto`, " See" attaches: case and padding are ignored |
| VisionContext.KeywordContained | pipecat-agent/bot.py:2748 | In `auto`, containing any one keyword is enough to attach |
| VisionContext.ClampMaxAge | pipecat-agent/bot.py:822 | The maximum age is kept when within `[0, 60]`; a negative age becomes 0 and one over 60 becomes 60 |
| VisionContext.HandleAggregation | pipecat-agent/bot.py:2750-2802 | A blank turn appends nothing, and any other turn appends exactly one message. It is the image message exactly when an image is wanted, the snapshot is non-empty and fresh (`max_age <= 0` or `now - ts <= max_age`), and encoding succeeded. Otherwise it is the plain text message |
| VisionContext.NeverIsTextOnly | pipecat-agent/bot.py:2711-2713 | With `never`, a non-blank turn is always one text-only message |
| VisionContext.HasImageScan | pipecat-agent/bot.py:950-959 | The nested scan over one message finds an image part exactly when the message's list content holds one |
| VisionContext.AnyImageMessage | pipecat-agent/bot.py:949-961 | The scan over all messages finds an image exactly when some message has an image part |
| VisionContext.SelectModel | pipecat-agent/bot.py:937-966 | The vision model is chosen exactly when some message's list content has an `image_url` item; otherwise the text model |
| VisionContext.VisionMessageHasImage | pipecat-agent/bot.py:2792-2796 | The image message built for a turn is always recognised as holding an image |
| VisionContext.TextMessageHasNoImage | pipecat-agent/bot.py:2757 | A plain text message never is |
| VisionContext.ImageTurnRoutesToVision | pipecat-agent/bot.py:937-966 | Once an image turn is in the context, the request goes to the vision model |
| VisionContext.TextTurnsRouteToText | pipecat-agent/bot.py:937-966 | A context of plain text turns goes to the text model |
| VisionContext.LogPart | pipecat-agent/bot.py:1653-1664 | Non-dicts and untyped parts are skipped. A text part logs as its stripped text and is skipped when blank. An image part logs as `[image]`. Any other type logs as `[type]`, normalized. A logged part is never empty |
| VisionContext.ContentForLog | pipecat-agent/bot.py:1646-1668 | A string is logged as it is. A part list is logged as its parts' log lines joined by newlines and stripped. Anything else is logged as `str(content or "")` |
| VisionContext.VisionMessageLog | pipecat-agent/bot.py:1646-1668 | An image turn is logged as its text followed by a newline and `[image]`: the base64 payload never reaches the log |
| VisionContext.VisionLogParts | pipecat-agent/bot.py:1651-1665 | The log parts of an image turn are the stripped text, then `[image]` |
| VisionContext.LogPartOfImage | pipecat-agent/bot.py:1661-1662 | A part of type `image_url` is logged as the `[image]` marker alone, never its URL |
| VisionContext.LogPartOfText | pipecat-agent/bot.py:1656-1660 | A part of type `text` is logged as its stripped text |
| CallerMemory.Remember | pipecat-agent/bot.py:1579-1589 | An item is kept exactly when it is a dict with normalized role `user` or `assistant` and non-blank content. The content is then the stripped text cut to 2000 characters, and the kept message is valid |
| CallerMemory.Survivors | pipecat-agent/bot.py:1578-1590 | A message survives exactly when some item is remembered as it, and every survivor is valid |
| CallerMemory.RememberedItems | pipecat-agent/bot.py:1573-1578 | With a dict memory holding a list of messages, the items are its first 50, or all of them when fewer. Otherwise there are none |
| CallerMemory.InitialMessages | pipecat-agent/bot.py:1568-1597 | The prompt comes first when non-empty. With no survivor nothing else is added. Otherwise one system preamble and then exactly the survivors follow, at most 52 messages in all |
| CallerMemory.PreambleText | pipecat-agent/bot.py:1574-1595 | The preamble is the stripped `meta` when that is not blank, and the fixed default otherwise |
| CallerMemory.OnlyFirstFiftyMatter | pipecat-agent/bot.py:1578 | Two memories that agree on `meta` and on their first 50 items seed the same context |
| RequestBody.DialinSection | pipecat-agent/bot.py:189-191 | The nested dial-in section is the first truthy of `dialin_settings`, `dialinSettings` and `dialin` when that is a dict. It is empty when that value is not a dict or when none is truthy |
| RequestBody.ExtractDialin | pipecat-agent/bot.py:185-204 | A dial-in is found exactly when the body is a dict and both a call id and a call domain are truthy under some spelling. Each is then the `str()` of its first truthy candidate, nested keys before top-level ones |
| RequestBody.DialinNestedFirst | pipecat-agent/bot.py:189-201 | Nested camelCase settings are used before top-level snake_case keys |
| RequestBody.DialinNonDictSection | pipecat-agent/bot.py:189-191 | A truthy non-dict section hides a later spelling that is a dict |
| RequestBody.NonNull | pipecat-agent/bot.py:217 | The settings start as exactly the non-null entries |
| RequestBody.SetDefault | pipecat-agent/bot.py:234-239 | The key is present afterwards exactly when it was before or the value is truthy. A new key is appended with `str(value)`, and nothing else changes |
| RequestBody.DialoutEntries | pipecat-agent/bot.py:217-239 | No null values. The non-null entries stay first. Each canonical key is present exactly when it was already or its value is truthy under some spelling. At most three entries are appended, each a canonical key holding the text of its found value |
| RequestBody.ExtractDialout | pipecat-agent/bot.py:207-241 | Settings are returned exactly when the body is a dict, the first truthy section (or its first list element) is a dict, and the result is non-empty |
| RequestBody.PhoneAlwaysYieldsSettings | pipecat-agent/bot.py:219-235 | A truthy phone number under any spelling always yields settings. The canonical `phoneNumber` then holds its text unless it was already present |
| RequestBody.CanonicalValues | pipecat-agent/bot.py:235-240 | A canonical key (`phoneNumber`, `callerId`, `displayName`) missing from the dict but found truthy under another spelling reads, in the result, as `str()` of that value |
| RequestBody.ExtractSessionMode | pipecat-agent/bot.py:264-269 | The mode is the normalized text of the first truthy of `mode`, `session_mode` and `sessionMode`. It is empty for a non-dict body or when none is truthy, and always stripped and lower-case |
| RequestBody.SessionModeFallsThrough | pipecat-agent/bot.py:268-269 | An empty `mode` falls through to `sessionMode`, and " Dial\n" reads as "dial" |
| BackgroundDownload.DownloadLimited | pipecat-agent/bot.py:73-87 | A failed status raises before any chunk is read. The download fails for size exactly when the body is over the cap (and not empty). Otherwise it returns the whole body, within the cap. Reading stops at the first non-empty chunk that takes the total over the cap |
| BackgroundDownload.ConcatPrefixGrows | pipecat-agent/bot.py:80-84 | The running total over the chunks only grows, which is why stopping at the first overflow decides the whole download |
| PyJson.OrChainFirstTruthy | pipecat-agent/bot.py:189 | `a or b or ...` is truthy exactly when some value is. It is then the first truthy value, and otherwise the last value |

## Left out

- I/O and SDK calls are outcome parameters, not models. This covers HTTP,
  the Cartesia websocket, LiveKit, the Akool session API, HeyGen's
  inherited client, `push_error` and logging.
- The `push_error` made just before the reconnect loop raises is not
  modelled. It is a pipeline side effect with no decision in it.
- asyncio tasks and locks are left out. Each lock-guarded section is one
  atomic step. The shutdown coroutines are an effect, and what they do is
  not modelled.
- Randomness, clocks and float arithmetic are not modelled exactly.
  Jitter draws and clock readings are inputs. Delays, gains and ages are
  mathematical reals rather than IEEE doubles.
- BackgroundMixer.ProcessFrame: `num_frames` uses exact integer division
  instead of truncating a float quotient. The two differ only beyond
  2^53 bytes.
- `audioop.ratecv`/`tomono`/`lin2lin`, WAV decoding, the HeyGen resampler
  and PIL JPEG encoding are foreign library code. JPEG encoding is an
  `Option` parameter of `HandleAggregation`; the others are not modelled.
- `_wav_to_pcm16_mono` and `_load_background_pcm16_mono` are not part of
  this model; only the download loop is.
- Environment parsing (`_env`, `_parse_int`, `_parse_float`) is left out;
  its results are parameters. `_extract_daily_api` reads the environment
  and is not modelled.
- Decoded JSON holds integers but no floats.
- PyJson.Str: `str()` of a list or dict is a fixed placeholder (`[...]`
  or `{...}`), not Python's rendering of the container's contents. No
  keep-or-drop, routing or degrade decision depends on that text. The
  results that carry it are listed below, one per member.
- VisionContext.LogPart: a text part whose `text` is a container, or a part whose `type`
  is one, logs the placeholder (`[...]`, or `[[...]]` for the type) where
  the program logs the rendered container (`pipecat-agent/bot.py:1656-1664`).
- VisionContext.ContentForLog: dict content, and part lists holding the parts just
  described, log the placeholder instead of the rendered container.
- CallerMemory.Remember: list or dict `content` is stored as the placeholder, so the
  stored text and where its 2000-character cut falls differ from Python's.
- CallerMemory.PreambleText: a list or dict `meta` becomes the placeholder as the
  preamble, where the program uses its rendering
  (`pipecat-agent/bot.py:1574`). `InitialMessages` carries the same text.
- RequestBody.ExtractSessionMode: a list or dict `mode` reads as the normalized
  placeholder, e.g. `[...]` for `["dial"]` where Python gives `['dial']`.
- RequestBody.ExtractDialin: a container call id or domain is rendered as the
  placeholder.
- RequestBody.SetDefault: a container value is appended as the placeholder.
- RequestBody.DialoutEntries: a container phone number, caller id or
  display name found under another spelling is stored as the placeholder.
- RequestBody.CanonicalValues: the canonical value read back is the
  placeholder for a container.
- RequestBody.PhoneAlwaysYieldsSettings: the canonical `phoneNumber` holds
  the placeholder for a container phone number.
- CallerMemory.InitialMessages: the preamble and remembered contents carry
  the placeholder text described for PreambleText and Remember.
- `lower()`/`upper()` are modelled on ASCII letters only. Python's full
  Unicode case mapping is not.
- HeyGen's `start` override (`pipecat-agent/bot.py:1755-1766`) is not
  modelled as a step. Its failure degrades through the shared
  `AvatarFallback.Disable`. The inherited `process_frame` and the queue
  and timeout handling of `_send_task_handler` are left out. Only the chunking loop
  is modelled, over a given buffer and new audio.
- HeyGenVideo.Step: a cancelled send task is not modelled. On such a task
  `.exception()` raises `CancelledError`, which `except Exception` does
  not catch, so `process_frame` raises out of the frame handling instead
  of degrading (`pipecat-agent/bot.py:1828-1833`). The step result has no
  raising outcome.
- PyJson.Lookup: for an object with a repeated key it reads the first
  entry, while `json.loads` keeps the last. The two agree on every object
  without repeated keys.
- VisionContext.ContentForLog: the `except Exception: return ""` branch
  is not modelled, because no modelled value makes `str()` raise.
- AkoolVideo.StartFramePath: after a failed start the model leaves the
  room down. In the program, `_connect_livekit` sets `_room` before
  `room.connect` (`pipecat-agent/bot.py:2284-2308`), so a failed connect
  leaves `_room` set until `_stop_session` clears it. The avatar is
  disabled by then, and RoomUnobservedWhileDisabled shows that no frame
  observes the room while it is.
- Akool's `_send_stream_message` catches publish errors itself. Whether
  `_send_text` raises once a room is up is therefore a parameter. With no
  room it returns before anything can raise.
- Camera capture failures inside `ingest_user_image` are caught and
  logged, so a captured frame is reported whatever `capture_frame` does.
- The tool-call handlers, webhooks, transcript posting and dial-out and
  call-state event handlers are transport glue, not core logic.

=== FILE: akool_video.dfy ===
/** `AkoolVideoService.process_frame`: the avatar processor that sits after
    speech synthesis. While the avatar is active it starts and stops the
    avatar session, forwards camera frames, interrupts on barge-in and feeds
    language-model text to the avatar through the flush buffer; once the
    avatar is degraded every non-lifecycle frame passes straight through.
    Every frame, in every branch, is pushed on exactly once and unchanged. */
module AkoolVideo {
  import opened Prelude
  import opened PyText
  import opened AvatarFallback
  import SentenceFlush
  import VisionIngest

  /** The frame kinds the processor tells apart. */
  datatype Frame =
    | StartFrame
    | OutputTransportReadyFrame
    | EndFrame
    | CancelFrame
    | UserImageFrame(image: VisionIngest.ImageFrame)
    | UserStartedSpeakingFrame
    | InterruptionFrame
    | TtsTextFrame(text: string)
    | LlmTextFrame(text: string)
    | LlmFullResponseEndFrame
    | OtherFrame(tag: nat)

  /** Start, transport-ready, end and cancel are handled even when the
      avatar is degraded. */
  predicate IsLifecycle(f: Frame)
  {
    f.StartFrame? || f.OutputTransportReadyFrame? || f.EndFrame? || f.CancelFrame?
  }

  /** Constructor settings that matter here. */
  datatype Config = Config(visionEnabled: bool, visionFps: VisionIngest.Fps)

  /** The processor's mutable fields, as one value. `roomUp` stands for a
      live avatar session (`self._room` is set). */
  datatype AkoolState = AkoolState(
    avatar: Degrade,
    pending: string,
    transportReady: bool,
    roomUp: bool,
    vision: VisionIngest.IngestState)

  const Initial := AkoolState(Active, "", false, false, VisionIngest.Fresh)

  /** What the processor does to the outside world during one frame. */
  datatype Effect =
    | SessionStarted          // session created and room joined
    | SessionStopped          // streams cancelled, room left, session closed
    | Chat(text: string)      // a chat message published to the avatar
    | Interrupt               // an interrupt command published to the avatar
    | ShutdownScheduled       // the background teardown after a degrade
    | CameraFrame(width: int, height: int, pixels: seq<byte>)

  /** Outcomes of the calls the processor makes during one frame, which
      the model cannot compute: whether starting the session succeeds,
      whether sending text raises, how scheduling the shutdown task goes,
      the event-loop clock, and whether publishing a camera track works. */
  datatype Env = Env(startOk: bool, sendOk: bool, spawn: Spawn, now: real, publishOk: bool, error: string)

  datatype StepResult = StepResult(state: AkoolState, effects: seq<Effect>, pushed: seq<Frame>)

  /** `_disable_avatar`, with the shutdown task as an effect. */
  function DisableAvatar(st: AkoolState, reason: string, env: Env): (r: (AkoolState, seq<Effect>))
    ensures r.0.avatar.disabled
    ensures r.0 == st.(avatar := r.0.avatar)
    ensures st.avatar.disabled ==> r.0 == st && r.1 == []
  {
    var t := Disable(st.avatar, reason, env.spawn);
    (st.(avatar := t.state), if t.spawned then [ShutdownScheduled] else [])
  }

  /** `_send_text`: strip, skip blank text, publish only while a room is
      up; a raise from the send degrades the avatar. Without a room the
      send returns before anything can raise. */
  function SendText(st: AkoolState, text: string, env: Env): (r: (AkoolState, seq<Effect>))
    ensures forall e :: e in r.1 && e.Chat? ==> e.text == Strip(text) && e.text != ""
    ensures IsBlank(text) ==> r == (st, [])
    // Nothing is published, and nothing can fail, without a room.
    ensures !st.roomUp ==> r == (st, [])
    ensures !IsBlank(text) && st.roomUp ==> |r.1| > 0 && r.1[0] == Chat(Strip(text))
    ensures st.avatar.disabled || env.sendOk ==> r.0 == st
    // A send that raises degrades the avatar, recording why.
    ensures !IsBlank(text) && st.roomUp && !env.sendOk ==>
              r.0.avatar == Disable(st.avatar, "send_text failed: " + env.error, env.spawn).state
              && r.0.avatar.disabled
    ensures r.0.pending == st.pending
  {
    var t := Strip(text);
    if t == "" || !st.roomUp then (st, [])
    else if env.sendOk then (st, [Chat(t)])
    else
      var d := DisableAvatar(st, "send_text failed: " + env.error, env);
      (d.0, [Chat(t)] + d.1)
  }

  /** `_stop_session`: cancel streams, forget the camera track, leave the
      room and close the session. */
  function StopSession(st: AkoolState): (r: AkoolState)
    ensures !r.roomUp && r.vision == VisionIngest.Fresh
    ensures r.avatar == st.avatar && r.pending == st.pending
  {
    st.(roomUp := false, vision := VisionIngest.Fresh)
  }

  /** The handling of one frame, before it is pushed on. */
  function Handle(cfg: Config, st: AkoolState, f: Frame, env: Env): (r: (AkoolState, seq<Effect>))
  {
    match f
    case StartFrame =>
      var ready := st.(transportReady := true);
      if ready.avatar.disabled || ready.roomUp then (ready, [])
      else if env.startOk then (ready.(roomUp := true), [SessionStarted])
      else DisableAvatar(ready, "start failed: " + env.error, env)
    case OutputTransportReadyFrame =>
      (st.(transportReady := true), [])
    case EndFrame =>
      (StopSession(st), [SessionStopped])
    case CancelFrame =>
      (StopSession(st), [SessionStopped])
    case _ =>
      if st.avatar.disabled then (st, [])
      else HandleActive(cfg, st, f, env)
  }

  /** The non-lifecycle frames while the avatar is active. */
  function HandleActive(cfg: Config, st: AkoolState, f: Frame, env: Env): (r: (AkoolState, seq<Effect>))
    requires !IsLifecycle(f)
  {
    match f
    case UserImageFrame(img) =>
      var step := VisionIngest.Ingest(cfg.visionEnabled, cfg.visionFps, st.avatar.disabled,
                                      st.roomUp, st.vision, img, env.now, env.publishOk);
      var effects := if step.outcome.Captured?
                     then [CameraFrame(step.outcome.width, step.outcome.height, step.outcome.pixels)]
                     else [];
      (st.(vision := step.state), effects)
    case UserStartedSpeakingFrame =>
      (st, if st.roomUp then [Interrupt] else [])
    case InterruptionFrame =>
      (st, if st.roomUp then [Interrupt] else [])
    case TtsTextFrame(text) =>
      SendText(st, text, env)
    case LlmTextFrame(text) =>
      var tok := SentenceFlush.OnToken(st.pending, text);
      var buffered := st.(pending := tok.pending);
      if tok.send.Some? then SendText(buffered, tok.send.value, env) else (buffered, [])
    case LlmFullResponseEndFrame =>
      var end := SentenceFlush.OnResponseEnd(st.pending);
      if end.send.Some? then
        var sent := SendText(st, end.send.value, env);
        (sent.0.(pending := end.pending), sent.1)
      else
        (st.(pending := end.pending), [])
    case OtherFrame(_) =>
      (st, [])
  }

  /** `process_frame`. */
  function Step(cfg: Config, st: AkoolState, f: Frame, env: Env): (r: StepResult)
    ensures r.pushed == [f]
    ensures st.avatar.disabled ==> r.state.avatar == st.avatar
    ensures st.avatar.disabled && !IsLifecycle(f) ==> r.state == st && r.effects == []
  {
    var h := Handle(cfg, st, f, env);
    StepResult(h.0, h.1, [f])
  }

  /** Degrading is one-way: no frame and no outcome turns a degraded avatar
      back on. */
  lemma DisabledIsPermanent(cfg: Config, st: AkoolState, f: Frame, env: Env)
    requires st.avatar.disabled
    ensures Step(cfg, st, f, env).state.avatar.disabled
  {
  }

  /** A `StartFrame` on an active avatar with no session: the session is
      started when that succeeds, and the avatar is degraded with the
      start error when it raises. */
  lemma StartFramePath(cfg: Config, st: AkoolState, env: Env)
    requires !st.avatar.disabled && !st.roomUp
    ensures var r := Step(cfg, st, StartFrame, env);
            && r.state.transportReady
            && (env.startOk ==> r.state.roomUp && r.effects == [SessionStarted] && !r.state.avatar.disabled)
            && (!env.startOk ==> r.state.avatar.disabled && !r.state.roomUp
                                 && r.state.avatar.reason == Strip("start failed: " + env.error)
                                 && SessionStarted !in r.effects)
  {
    var ready := st.(transportReady := true);
    if !env.startOk {
      var d := DisableAvatar(ready, "start failed: " + env.error, env);
      assert Handle(cfg, st, StartFrame, env) == d;
    }
  }

  /** While the avatar is degraded, whether a room is up is never
      observed: with or without one, a frame pushes and does the same, and
      leaves the same state apart from the room flag itself. */
  lemma RoomUnobservedWhileDisabled(cfg: Config, st: AkoolState, f: Frame, env: Env)
    requires st.avatar.disabled
    ensures var up := Step(cfg, st.(roomUp := true), f, env);
            var down := Step(cfg, st.(roomUp := false), f, env);
            && up.pushed == down.pushed
            && up.effects == down.effects
            && up.state.(roomUp := false) == down.state.(roomUp := false)
  {
  }

  /** An `LLMTextFrame` on an active avatar: the token joins the pending
      text, the flushable prefix is cut off, and that prefix is sent as one
      stripped chat message when it is not blank and a room is up. */
  lemma TokenPath(cfg: Config, st: AkoolState, text: string, env: Env)
    requires !st.avatar.disabled
    ensures var r := Step(cfg, st, LlmTextFrame(text), env);
            var split := SentenceFlush.SplitFlushable(st.pending + text);
            && r.state.pending == split.rest
            && r.pushed == [LlmTextFrame(text)]
            && (IsBlank(split.flush) ==> r.state == st.(pending := split.rest) && r.effects == [])
            && (!IsBlank(split.flush) && st.roomUp ==> |r.effects| > 0 && r.effects[0] == Chat(Strip(split.flush)))
            && (!IsBlank(split.flush) && env.sendOk ==> r.state == st.(pending := split.rest))
  {
    var tok := SentenceFlush.OnToken(st.pending, text);
    var buffered := st.(pending := tok.pending);
    HandleToken(cfg, st, text, env);
  }

  /** The `LLMTextFrame` branch, on its own. */
  lemma HandleToken(cfg: Config, st: AkoolState, text: string, env: Env)
    requires !st.avatar.disabled
    ensures var tok := SentenceFlush.OnToken(st.pending, text);
            var buffered := st.(pending := tok.pending);
            Handle(cfg, st, LlmTextFrame(text), env)
            == if tok.send.Some? then SendText(buffered, tok.send.value, env) else (buffered, [])
  {
    assert Handle(cfg, st, LlmTextFrame(text), env) == HandleActive(cfg, st, LlmTextFrame(text), env);
  }

  /** `LLMFullResponseEndFrame` on an active avatar: the pending text is
      sent when it is not blank, and the buffer is emptied in every case,
      even when the send raised. */
  lemma ResponseEndPath(cfg: Config, st: AkoolState, env: Env)
    requires !st.avatar.disabled
    ensures var r := Step(cfg, st, LlmFullResponseEndFrame, env);
            && r.state.pending == ""
            && (IsBlank(st.pending) ==> r.state == st.(pending := "") && r.effects == [])
            && (!IsBlank(st.pending) && st.roomUp ==> |r.effects| > 0 && r.effects[0] == Chat(Strip(st.pending)))
  {
  }

  /** Run a sequence of frames, each with its own outcomes. */
  function Run(cfg: Config, st: AkoolState, frames: seq<Frame>, envs: seq<Env>): (r: StepResult)
    requires |envs| == |frames|
  {
    if |frames| == 0 then StepResult(st, [], [])
    else
      var prev := Run(cfg, st, frames[..|frames| - 1], envs[..|envs| - 1]);
      var step := Step(cfg, prev.state, frames[|frames| - 1], envs[|envs| - 1]);
      StepResult(step.state, prev.effects + step.effects, prev.pushed + step.pushed)
  }

  /** Over any run, the frames come out exactly as they went in, once
      each and in order; a degraded avatar stays degraded; and at most one
      shutdown task is ever scheduled. */
  lemma {:induction false} RunForwardsEverything(cfg: Config, frames: seq<Frame>, envs: seq<Env>)
    requires |envs| == |frames|
    ensures Run(cfg, Initial, frames, envs).pushed == frames
    ensures Count(Run(cfg, Initial, frames, envs).effects, ShutdownScheduled) <= 1
    ensures Run(cfg, Initial, frames, envs).state.avatar.shutdownScheduled
            <==> Count(Run(cfg, Initial, frames, envs).effects, ShutdownScheduled) == 1
    ensures !Run(cfg, Initial, frames, envs).state.avatar.disabled
            ==> Run(cfg, Initial, frames, envs).state.avatar == Active
  {
    if |frames| > 0 {
      var init, initEnvs := frames[..|frames| - 1], envs[..|envs| - 1];
      var prev := Run(cfg, Initial, init, initEnvs);
      RunForwardsEverything(cfg, init, initEnvs);
      var f, env := frames[|frames| - 1], envs[|envs| - 1];
      var step := Step(cfg, prev.state, f, env);
      InitLast(frames);
      StepShutdownCount(cfg, prev.state, f, env);
      CountAppend(prev.effects, step.effects, ShutdownScheduled);
    }
  }

  /** Occurrences of `e` in `es`. */
  function Count(es: seq<Effect>, e: Effect): nat
  {
    if |es| == 0 then 0 else Count(es[..|es| - 1], e) + if es[|es| - 1] == e then 1 else 0
  }

  lemma {:induction false} CountAppend(a: seq<Effect>, b: seq<Effect>, e: Effect)
    ensures Count(a + b, e) == Count(a, e) + Count(b, e)
  {
    if |b| > 0 {
      assert (a + b)[..|a + b| - 1] == a + b[..|b| - 1];
      CountAppend(a, b[..|b| - 1], e);
    } else {
      assert a + b == a;
    }
  }

  /** The effects of one transition schedule a shutdown exactly when the
      transition moves the shutdown flag from unset to set; the flag is
      never cleared; and an avatar that is not disabled is still the
      clean active one. */
  predicate ShutdownAccounted(before: Degrade, after: Degrade, effects: seq<Effect>)
  {
    && Count(effects, ShutdownScheduled) == (if after.shutdownScheduled && !before.shutdownScheduled then 1 else 0)
    && (before.shutdownScheduled ==> after.shutdownScheduled)
    && (!after.disabled ==> after == Active)
  }

  /** A single frame schedules a shutdown exactly when it moves the
      shutdown flag from unset to set, and otherwise leaves that flag and a
      clean active state alone. */
  lemma StepShutdownCount(cfg: Config, st: AkoolState, f: Frame, env: Env)
    requires !st.avatar.disabled ==> st.avatar == Active
    ensures var r := Step(cfg, st, f, env); ShutdownAccounted(st.avatar, r.state.avatar, r.effects)
  {
    var h := Handle(cfg, st, f, env);
    if IsLifecycle(f) {
      if f.StartFrame? {
        var ready := st.(transportReady := true);
        if !ready.avatar.disabled && !ready.roomUp && !env.startOk {
          DisableAvatarCount(ready, "start failed: " + env.error, env);
        }
      }
    } else if !st.avatar.disabled {
      assert h == HandleActive(cfg, st, f, env);
      ActiveShutdownCount(cfg, st, f, env);
    }
  }

  /** `StepShutdownCount` for the frames handled only while active. */
  lemma ActiveShutdownCount(cfg: Config, st: AkoolState, f: Frame, env: Env)
    requires !IsLifecycle(f) && st.avatar == Active
    ensures var h := HandleActive(cfg, st, f, env); ShutdownAccounted(st.avatar, h.0.avatar, h.1)
  {
    match f
    case TtsTextFrame(text) =>
      SendTextCount(st, text, env);
    case LlmTextFrame(text) =>
      TokenShutdownCount(cfg, st, text, env);
    case LlmFullResponseEndFrame =>
      EndShutdownCount(cfg, st, env);
    case UserImageFrame(img) =>
      ImageShutdownCount(cfg, st, img, env);
    case _ =>
  }

  lemma TokenShutdownCount(cfg: Config, st: AkoolState, text: string, env: Env)
    requires st.avatar == Active
    ensures var h := HandleActive(cfg, st, LlmTextFrame(text), env); ShutdownAccounted(st.avatar, h.0.avatar, h.1)
  {
    var tok := SentenceFlush.OnToken(st.pending, text);
    var buffered := st.(pending := tok.pending);
    if tok.send.Some? {
      SendTextCount(buffered, tok.send.value, env);
    } else {
      assert HandleActive(cfg, st, LlmTextFrame(text), env) == (buffered, []);
    }
  }

  lemma EndShutdownCount(cfg: Config, st: AkoolState, env: Env)
    requires st.avatar == Active
    ensures var h := HandleActive(cfg, st, LlmFullResponseEndFrame, env); ShutdownAccounted(st.avatar, h.0.avatar, h.1)
  {
    HandleEnd(cfg, st, env);
    if !IsBlank(st.pending) {
      SendTextCount(st, st.pending, env);
    }
  }

  /** The `LLMFullResponseEndFrame` branch, on its own. */
  lemma HandleEnd(cfg: Config, st: AkoolState, env: Env)
    ensures var h := HandleActive(cfg, st, LlmFullResponseEndFrame, env);
            var sent := SendText(st, st.pending, env);
            h == if IsBlank(st.pending) then (st.(pending := ""), []) else (sent.0.(pending := ""), sent.1)
  {
  }

  lemma ImageShutdownCount(cfg: Config, st: AkoolState, img: VisionIngest.ImageFrame, env: Env)
    requires st.avatar == Active
    ensures var h := HandleActive(cfg, st, UserImageFrame(img), env); ShutdownAccounted(st.avatar, h.0.avatar, h.1)
  {
    var h := HandleActive(cfg, st, UserImageFrame(img), env);
    assert h.1 == [] || (|h.1| == 1 && h.1[0].CameraFrame?);
    if h.1 != [] {
      assert h.1[..0] == [];
    }
  }

  lemma DisableAvatarCount(st: AkoolState, reason: string, env: Env)
    requires !st.avatar.disabled ==> st.avatar == Active
    ensures var d := DisableAvatar(st, reason, env); ShutdownAccounted(st.avatar, d.0.avatar, d.1)
  {
  }

  lemma SendTextCount(st: AkoolState, text: string, env: Env)
    requires !st.avatar.disabled ==> st.avatar == Active
    ensures var r := SendText(st, text, env); ShutdownAccounted(st.avatar, r.0.avatar, r.1)
  {
    var t := Strip(text);
    if t != "" && st.roomUp && !env.sendOk {
      var d := DisableAvatar(st, "send_text failed: " + env.error, env);
      DisableAvatarCount(st, "send_text failed: " + env.error, env);
      CountAppend([Chat(t)], d.1, ShutdownScheduled);
      assert [Chat(t)][..0] == [];
    }
  }
}

=== FILE: audioop.dfy ===
/** The two `audioop` calls the background mixer makes, for sample width 2:
    `mul(fragment, 2, factor)` scales every signed 16-bit little-endian
    sample and `add(a, b, 2)` adds two fragments sample by sample, both
    clipping to the 16-bit range instead of wrapping. The factor is a real
    number here; the C implementation computes in double precision. */
module Audioop {
  import opened Prelude

  const MinSample: int := -32768
  const MaxSample: int := 32767

  type Sample = x: int | MinSample <= x <= MaxSample

  /** Success with the produced bytes, or the `audioop.error` raised. */
  datatype Outcome = Ok(bytes: seq<byte>) | Raised(message: string)

  /** The signed 16-bit little-endian sample at sample index `i`. */
  function SampleAt(b: seq<byte>, i: nat): Sample
    requires 2 * i + 1 < |b|
  {
    var u := b[2 * i] as int + 256 * (b[2 * i + 1] as int);
    if u >= 32768 then u - 65536 else u
  }

  /** The low and high byte of a sample in two's complement. */
  function LowByte(v: Sample): byte
  {
    var u := if v < 0 then v + 65536 else v;
    (u % 256) as byte
  }

  function HighByte(v: Sample): byte
  {
    var u := if v < 0 then v + 65536 else v;
    (u / 256) as byte
  }

  /** Samples written back as little-endian bytes. */
  function Encode(samples: seq<Sample>): (b: seq<byte>)
    ensures |b| == 2 * |samples|
  {
    seq(2 * |samples|, j requires 0 <= j < 2 * |samples| =>
      if j % 2 == 0 then LowByte(samples[j / 2]) else HighByte(samples[j / 2]))
  }

  /** Writing a sample and reading it back gives the same sample. */
  lemma DecodeEncode(samples: seq<Sample>, i: nat)
    requires i < |samples|
    ensures SampleAt(Encode(samples), i) == samples[i]
  {
    var b := Encode(samples);
    assert (2 * i) % 2 == 0 && (2 * i) / 2 == i;
    assert (2 * i + 1) % 2 == 1 && (2 * i + 1) / 2 == i;
    assert b[2 * i] == LowByte(samples[i]);
    assert b[2 * i + 1] == HighByte(samples[i]);
  }

  lemma DecodeEncodeAll(samples: seq<Sample>)
    ensures forall i :: 0 <= i < |samples| ==> SampleAt(Encode(samples), i) == samples[i]
  {
    forall i | 0 <= i < |samples|
      ensures SampleAt(Encode(samples), i) == samples[i]
    {
      DecodeEncode(samples, i);
    }
  }

  /** Clip to the 16-bit range. */
  function Saturate(v: int): (r: Sample)
    ensures MinSample <= v <= MaxSample ==> r == v
    ensures v > MaxSample ==> r == MaxSample
    ensures v < MinSample ==> r == MinSample
  {
    if v > MaxSample then MaxSample else if v < MinSample then MinSample else v
  }

  /** One summed sample, clipped. */
  function AddSample(x: Sample, y: Sample): Sample
  {
    Saturate(x + y)
  }

  /** One scaled sample: the product is clipped (anything below
      `MinSample + 1` goes to `MinSample`) and then rounded down. */
  function ScaleSample(s: Sample, factor: real): Sample
  {
    var v := (s as real) * factor;
    if v > MaxSample as real then MaxSample
    else if v < (MinSample + 1) as real then MinSample
    else v.Floor
  }

  /** `audioop.mul(fragment, 2, factor)`. */
  function Mul(fragment: seq<byte>, factor: real): (r: Outcome)
    ensures r.Raised? <==> |fragment| % 2 != 0
    ensures r.Ok? ==> |r.bytes| == |fragment|
    ensures r.Ok? ==> forall i :: 0 <= i < |fragment| / 2 ==>
              SampleAt(r.bytes, i) == ScaleSample(SampleAt(fragment, i), factor)
  {
    if |fragment| % 2 != 0 then Raised("not a whole number of frames")
    else
      var n := |fragment| / 2;
      var scaled := seq(n, i requires 0 <= i < n => ScaleSample(SampleAt(fragment, i), factor));
      DecodeEncodeAll(scaled);
      Ok(Encode(scaled))
  }

  /** `audioop.add(a, b, 2)`. */
  function Add(a: seq<byte>, b: seq<byte>): (r: Outcome)
    ensures r.Raised? <==> |a| % 2 != 0 || |a| != |b|
    ensures r.Ok? ==> |r.bytes| == |a|
    ensures r.Ok? ==> forall i :: 0 <= i < |a| / 2 ==>
              SampleAt(r.bytes, i) == AddSample(SampleAt(a, i), SampleAt(b, i))
  {
    if |a| % 2 != 0 then Raised("not a whole number of frames")
    else if |a| != |b| then Raised("Lengths should be the same")
    else
      var n := |a| / 2;
      var sums := seq(n, i requires 0 <= i < n => AddSample(SampleAt(a, i), SampleAt(b, i)));
      DecodeEncodeAll(sums);
      Ok(Encode(sums))
  }
}

=== FILE: avatar_fallback.dfy ===
/** The one-way degrade shared by both avatar adapters (Akool's
    `_disable_avatar` and HeyGen's `_enter_audio_only_fallback`): the first
    trigger switches the avatar off for the rest of the meeting, records why
    and tries to schedule one background shutdown; every later trigger is a
    no-op, and nothing switches the avatar back on. */
module AvatarFallback {
  import opened PyText

  /** How scheduling the shutdown coroutine went: through the processor's
      own task manager, through the plain event loop after that raised, or
      not at all because both raised. */
  datatype Spawn = ManagedTask | LoopTask | NoTask

  /** `{disabled, reason, shutdownScheduled}`. */
  datatype Degrade = Degrade(disabled: bool, reason: string, shutdownScheduled: bool)

  /** The state every adapter starts a meeting in. */
  const Active := Degrade(false, "", false)

  /** Result of one trigger: the new state and whether this trigger
      scheduled a shutdown task. */
  datatype Transition = Transition(state: Degrade, spawned: bool)

  /** One trigger with a reason (`str(reason or "").strip()` is stored). */
  function Disable(d: Degrade, reason: string, spawn: Spawn): (r: Transition)
    ensures r.state.disabled
    ensures d.disabled ==> r.state == d && !r.spawned
    ensures !d.disabled ==> r.state.reason == Strip(reason)
    ensures r.spawned <==> !d.disabled && !d.shutdownScheduled && spawn != NoTask
    ensures r.state.shutdownScheduled <==> d.shutdownScheduled || r.spawned
  {
    if d.disabled then Transition(d, false)
    else
      var spawned := !d.shutdownScheduled && spawn != NoTask;
      Transition(Degrade(true, Strip(reason), d.shutdownScheduled || spawned), spawned)
  }

  /** A second trigger, whatever its reason or scheduling outcome, changes
      nothing and schedules nothing. */
  lemma DisableIdempotent(d: Degrade, r1: string, s1: Spawn, r2: string, s2: Spawn)
    ensures var t1 := Disable(d, r1, s1);
            Disable(t1.state, r2, s2) == Transition(t1.state, false)
  {
  }

  /** A run of triggers: the final state and how many shutdown tasks were
      scheduled in total. */
  function Run(d: Degrade, triggers: seq<(string, Spawn)>): (Degrade, nat)
  {
    if |triggers| == 0 then (d, 0)
    else
      var prev := Run(d, triggers[..|triggers| - 1]);
      var last := triggers[|triggers| - 1];
      var t := Disable(prev.0, last.0, last.1);
      (t.state, prev.1 + if t.spawned then 1 else 0)
  }

  /** From an active avatar, any run of triggers schedules at most one
      shutdown, keeps the reason of the FIRST trigger, and leaves the
      avatar disabled once there was at least one trigger. */
  lemma {:induction false} RunFromActive(triggers: seq<(string, Spawn)>)
    ensures Run(Active, triggers).1 <= 1
    ensures Run(Active, triggers).0.shutdownScheduled <==> Run(Active, triggers).1 == 1
    ensures |triggers| > 0 ==> Run(Active, triggers).0.disabled
    ensures |triggers| > 0 ==> Run(Active, triggers).0.reason == Strip(triggers[0].0)
    ensures |triggers| == 0 ==> Run(Active, triggers).0 == Active
  {
    if |triggers| > 0 {
      var init := triggers[..|triggers| - 1];
      RunFromActive(init);
      if |init| > 0 {
        assert init[0] == triggers[0];
      }
    }
  }

  /** Once disabled, any further run of triggers leaves the state exactly
      as it was and schedules nothing. */
  lemma {:induction false} RunWhileDisabled(d: Degrade, triggers: seq<(string, Spawn)>)
    requires d.disabled
    ensures Run(d, triggers) == (d, 0)
  {
    if |triggers| > 0 {
      RunWhileDisabled(d, triggers[..|triggers| - 1]);
    }
  }
}

=== FILE: background_download.dfy ===
/** Fetching the background audio file with a hard size cap: the body is
    read as a stream of chunks and the download is abandoned as soon as
    the running total passes the cap. */
module BackgroundDownload {
  import opened Prelude

  /** How `_download_bytes_limited` ends: the joined body, the error
      `raise_for_status` raises, or the "too large" error raised after
      reading `read` chunks. */
  datatype Download =
    | Downloaded(data: seq<byte>)
    | HttpStatusError
    | TooLarge(read: nat)

  /** `_download_bytes_limited`. `statusOk` is whether the response status
      is a success; `body` is what `aiter_bytes` yields, in order. */
  method DownloadLimited(statusOk: bool, body: seq<seq<byte>>, maxBytes: int) returns (r: Download)
    // A failed status is reported before any chunk is read.
    ensures !statusOk <==> r == HttpStatusError
    // The download fails for size exactly when the whole body is over the
    // cap; an empty body never is, since the test runs only on a non-empty
    // chunk (this matters only for a negative cap) ...
    ensures statusOk ==> (r.TooLarge? <==> |Concat(body)| > maxBytes && Concat(body) != [])
    // ... and otherwise yields the whole body, which is within the cap.
    ensures r.Downloaded? ==> r.data == Concat(body) && (|r.data| <= maxBytes || r.data == [])
    // Reading stops at the first chunk that takes the total over the cap.
    ensures r.TooLarge? ==> 0 < r.read <= |body| && |Concat(body[..r.read])| > maxBytes
                            && body[r.read - 1] != []
                            && (|Concat(body[..r.read - 1])| <= maxBytes || Concat(body[..r.read - 1]) == [])
  {
    if !statusOk {
      return HttpStatusError;
    }
    var kept: seq<seq<byte>> := [];
    var total := 0;
    var i := 0;
    while i < |body|
      invariant 0 <= i <= |body|
      invariant Concat(kept) == Concat(body[..i])
      invariant total == |Concat(body[..i])|
      invariant total <= maxBytes || total == 0
      invariant forall k :: 0 <= k < |kept| ==> kept[k] != []
    {
      var chunk := body[i];
      ConcatSnoc(body[..i], chunk);
      assert body[..i + 1] == body[..i] + [chunk];
      i := i + 1;
      if chunk == [] {
        continue;
      }
      total := total + |chunk|;
      if total > maxBytes {
        ConcatPrefixGrows(body, i, |body|);
        assert body[..|body|] == body;
        return TooLarge(i);
      }
      ConcatSnoc(kept, chunk);
      kept := kept + [chunk];
    }
    assert body[..i] == body;
    r := Downloaded(Concat(kept));
  }

  /** The joined prefixes of a chunk stream only grow. */
  lemma {:induction false} ConcatPrefixGrows<T>(parts: seq<seq<T>>, i: nat, j: nat)
    requires i <= j <= |parts|
    ensures |Concat(parts[..i])| <= |Concat(parts[..j])|
    ensures Concat(parts[..i]) != [] ==> Concat(parts[..j]) != []
  {
    if i < j {
      ConcatPrefixGrows(parts, i, j - 1);
      assert parts[..j] == parts[..j - 1] + [parts[j - 1]];
      ConcatSnoc(parts[..j - 1], parts[j - 1]);
    }
  }
}

=== FILE: background_mixer.dfy ===
/** `BackgroundTTSMixer`: loops a decoded background track (PCM16 mono) and
    mixes it, scaled by a gain, into the bot's synthesized speech. The track
    bytes are shared; the read cursor belongs to one mixer. */
module BackgroundMixer {
  import opened Prelude
  import Audioop

  /** The mixer's fields: the track, the gain and the read cursor. */
  datatype Mixer = Mixer(bg: seq<byte>, gain: real, pos: nat)

  /** `__init__`: the cursor starts at the beginning of the track. */
  function NewMixer(bg: seq<byte>, gain: real): Mixer
  {
    Mixer(bg, gain, 0)
  }

  /** The cursor never runs past the end of the track. */
  predicate Valid(m: Mixer)
  {
    m.pos <= |m.bg|
  }

  /** Reference definition: `n` bytes of the track read cyclically from
      offset `pos`. */
  function Cyclic(bg: seq<byte>, pos: nat, n: nat): (r: seq<byte>)
    requires |bg| > 0
  {
    seq(n, i requires 0 <= i < n => bg[(pos + i) % |bg|])
  }

  /** `n` bytes of digital silence. */
  function Silence(n: nat): (r: seq<byte>)
  {
    seq(n, _ => 0 as byte)
  }

  /** `_next_bg(nbytes)`: the next `nbytes` of the looping track, and the
      cursor after the read. */
  method NextBg(bg: seq<byte>, pos: nat, nbytes: int) returns (out: seq<byte>, next: nat)
    requires pos <= |bg|
    ensures nbytes <= 0 ==> out == [] && next == pos
    ensures nbytes > 0 && |bg| == 0 ==> out == Silence(nbytes) && next == pos
    ensures nbytes > 0 && |bg| > 0 ==> out == Cyclic(bg, pos, nbytes)
    ensures nbytes > 0 && |bg| > 0 ==> next == (pos + nbytes - 1) % |bg| + 1
    ensures next <= |bg|
  {
    if |bg| == 0 || nbytes <= 0 {
      out := if nbytes <= 0 then [] else Silence(nbytes);
      next := pos;
      return;
    }
    var L := |bg|;
    out := [];
    next := pos;
    if pos < L {
      DivModUnique(pos, 0, pos, L);
    } else {
      DivModUnique(L, 1, 0, L);
    }
    while |out| < nbytes
      invariant |out| <= nbytes
      invariant next <= L
      invariant next < L ==> next == (pos + |out|) % L
      invariant next == L ==> (pos + |out|) % L == 0
      invariant |out| == 0 ==> next == pos
      invariant |out| > 0 ==> next == (pos + |out| - 1) % L + 1
      invariant forall i :: 0 <= i < |out| ==> out[i] == bg[(pos + i) % L]
      decreases nbytes - |out|
    {
      if next >= L {
        next := 0;
      }
      var x := pos + |out|;
      var take := if nbytes - |out| < L - next then nbytes - |out| else L - next;
      var chunk := bg[next..next + take];
      forall k | 0 <= k < take
        ensures chunk[k] == bg[(x + k) % L]
      {
        ModStep(x, next, k, L);
      }
      ModStep(x, next, take - 1, L);
      if next + take < L {
        ModStep(x, next, take, L);
      } else {
        ModWrap(x, next, take, L);
      }
      out := out + chunk;
      next := next + take;
    }
    assert out == Cyclic(bg, pos, nbytes);
  }

  /** The background bytes a frame of `n` bytes is mixed with. */
  function BackgroundFor(m: Mixer, n: nat): seq<byte>
  {
    if |m.bg| == 0 then Silence(n) else Cyclic(m.bg, m.pos, n)
  }

  /** The cursor after a read of `n > 0` bytes. */
  function Advance(m: Mixer, n: nat): nat
  {
    if |m.bg| == 0 then m.pos else (m.pos + n - 1) % |m.bg| + 1
  }

  /** A fresh mixer starts at the beginning of the track: the first frame
      of up to twice the track's length is mixed with the track played
      twice over, cut to the frame's length. */
  lemma FreshMixerReadsFromStart(bg: seq<byte>, gain: real, n: nat)
    requires 0 < |bg| && n <= 2 * |bg|
    ensures BackgroundFor(NewMixer(bg, gain), n) == (bg + bg)[..n]
  {
    var L := |bg|;
    var r := Cyclic(bg, 0, n);
    forall i | 0 <= i < n
      ensures r[i] == (bg + bg)[i]
    {
      if i < L {
        DivModUnique(i, 0, i, L);
      } else {
        DivModUnique(i, 1, i - L, L);
      }
    }
  }

  /** Looping is seamless: reading `a` bytes and then `b` bytes gives the
      same bytes as one read of `a + b`. */
  lemma {:induction false} CyclicContinues(bg: seq<byte>, pos: nat, a: nat, b: nat)
    requires |bg| > 0 && a > 0
    ensures Cyclic(bg, pos, a) + Cyclic(bg, (pos + a - 1) % |bg| + 1, b) == Cyclic(bg, pos, a + b)
  {
    var L := |bg|;
    var y := pos + a - 1;
    var next := y % L + 1;
    var front, back, whole := Cyclic(bg, pos, a), Cyclic(bg, next, b), Cyclic(bg, pos, a + b);
    forall i | 0 <= i < b
      ensures back[i] == whole[a + i]
    {
      assert y == (y / L) * L + y % L;
      ModAddMultiple(next + i, y / L, L);
      assert next + i + (y / L) * L == pos + a + i;
    }
    assert front + back == whole;
  }

  /** A four-byte track read for ten bytes. */
  lemma AbcdExample()
    ensures Cyclic([65, 66, 67, 68], 0, 10) == [65, 66, 67, 68, 65, 66, 67, 68, 65, 66]
  {
  }

  /** Which way a frame travels through the pipeline. */
  datatype Direction = Downstream | Upstream

  /** The frames the mixer tells apart: synthesized speech, and the rest. */
  datatype Frame =
    | TtsAudioFrame(audio: seq<byte>, sampleRate: int, numChannels: int, numFrames: int)
    | OtherFrame(tag: nat)

  /** `int(a / b)` for a non-negative `a`: the quotient truncated toward
      zero, as Python's `int` does with a float. */
  function TruncDiv(a: nat, b: int): int
    requires b != 0
  {
    if b > 0 then a / b else -(a / -b)
  }

  /** The gate of `process_frame`: only downstream speech with audio is
      mixed, and only with a positive gain. */
  predicate Mixes(m: Mixer, f: Frame, dir: Direction)
  {
    dir == Downstream && f.TtsAudioFrame? && m.gain > 0.0 && |f.audio| > 0
  }

  /** `process_frame`. A failing `audioop` call or a zero channel count
      is caught and the frame goes on as it is at that point. */
  method ProcessFrame(m: Mixer, f: Frame, dir: Direction) returns (m': Mixer, pushed: seq<(Frame, Direction)>)
    requires Valid(m)
    ensures Valid(m') && m'.bg == m.bg && m'.gain == m.gain
    ensures |pushed| == 1 && pushed[0].1 == dir
    // Bypass: the frame goes on untouched and the cursor stays.
    ensures !Mixes(m, f, dir) ==> pushed[0].0 == f && m' == m
    // The cursor advances by the frame length whether or not mixing then fails.
    ensures Mixes(m, f, dir) ==> m'.pos == Advance(m, |f.audio|)
    // Speech frames keep their length, rate and channel count.
    ensures f.TtsAudioFrame? ==> var g := pushed[0].0;
              && g.TtsAudioFrame? && |g.audio| == |f.audio|
              && g.sampleRate == f.sampleRate && g.numChannels == f.numChannels
    // An odd byte count makes `audioop.mul` raise: the frame is not changed.
    ensures Mixes(m, f, dir) && |f.audio| % 2 != 0 ==> pushed[0].0 == f
    // Otherwise every sample is the speech plus the scaled background, clipped.
    ensures Mixes(m, f, dir) && |f.audio| % 2 == 0 ==>
              var g := pushed[0].0;
              var bg := BackgroundFor(m, |f.audio|);
              |bg| == |f.audio| &&
              forall i :: 0 <= i < |f.audio| / 2 ==>
                Audioop.SampleAt(g.audio, i)
                == Audioop.AddSample(Audioop.SampleAt(f.audio, i),
                                     Audioop.ScaleSample(Audioop.SampleAt(bg, i), m.gain))
    // `num_frames` is recomputed, unless the division by zero channels raised.
    ensures Mixes(m, f, dir) && |f.audio| % 2 == 0 && f.numChannels != 0 ==>
              pushed[0].0.numFrames == TruncDiv(|f.audio|, f.numChannels * 2)
    ensures Mixes(m, f, dir) && f.numChannels == 0 ==> pushed[0].0.numFrames == f.numFrames
  {
    m' := m;
    var out := f;
    if dir == Downstream && f.TtsAudioFrame? && m.gain > 0.0 && |f.audio| > 0 {
      var bg, next := NextBg(m.bg, m.pos, |f.audio|);
      m' := m.(pos := next);
      var scaled := Audioop.Mul(bg, m.gain);
      if scaled.Ok? {
        var added := Audioop.Add(f.audio, scaled.bytes);
        if added.Ok? {
          out := out.(audio := added.bytes);
          if f.numChannels != 0 {
            out := out.(numFrames := TruncDiv(|added.bytes|, f.numChannels * 2));
          }
        }
      }
    }
    pushed := [(out, dir)];
  }

  /** If `x` sits at offset `p` in the cycle and `p + k` still fits, then
      `x + k` sits at offset `p + k`. */
  lemma ModStep(x: int, p: int, k: int, L: int)
    requires L > 0 && 0 <= p && 0 <= k && p + k < L && x % L == p
    ensures (x + k) % L == p + k
  {
    DivModUnique(x + k, x / L, p + k, L);
  }

  /** Reading up to the end of the track brings the offset back to 0. */
  lemma ModWrap(x: int, p: int, k: int, L: int)
    requires L > 0 && 0 <= p && p + k == L && x % L == p
    ensures (x + k) % L == 0
  {
    DivModUnique(x + k, x / L + 1, 0, L);
  }

  /** Adding whole turns of the cycle does not move the offset. */
  lemma ModAddMultiple(z: int, q: int, L: int)
    requires L > 0
    ensures (z + q * L) % L == z % L
  {
    DivModUnique(z + q * L, z / L + q, z % L, L);
  }
}

=== FILE: caller_memory.dfy ===
/** Seeding the conversation with a returning caller's memory: the system
    prompt, then, when at least one remembered message survives the
    filter, a system preamble followed by those messages. */
module CallerMemory {
  import opened Prelude
  import opened PyText
  import opened PyJson

  /** A chat message `{"role": ..., "content": ...}` with text content. */
  datatype Message = Message(role: string, content: string)

  /** Only this many remembered messages are looked at. */
  const MaxRemembered: nat := 50

  /** A remembered message is cut to this many characters. */
  const MaxContent: nat := 2000

  const DefaultPreamble :=
    "Returning caller: the following messages are from a previous call with this caller. Use them as context."

  /** What a surviving remembered message looks like. */
  predicate ValidMemory(m: Message)
  {
    (m.role == "user" || m.role == "assistant")
    && 0 < |m.content| <= MaxContent && !IsSpace(m.content[0])
  }

  /** One remembered item: kept when it is a dict whose normalized role is
      `user` or `assistant` and whose stripped content is non-empty; the
      content is then cut to `MaxContent` characters. */
  function Remember(item: JValue): (r: Option<Message>)
    ensures r.Some? ==> ValidMemory(r.value)
    ensures r.Some? <==> item.JDict? && (NormalText(Get(item, "role")) in {"user", "assistant"})
                         && !IsBlank(TextOf(Get(item, "content")))
    ensures r.Some? ==> var c := Strip(TextOf(Get(item, "content")));
                        r.value.content == c[..if |c| > MaxContent then MaxContent else |c|]
  {
    if !item.JDict? then None
    else
      var role := NormalText(Get(item, "role"));
      if role != "user" && role != "assistant" then None
      else
        var content := Strip(TextOf(Get(item, "content")));
        if content == "" then None
        else Some(Message(role, if |content| > MaxContent then content[..MaxContent] else content))
  }

  /** The loop over the remembered items: the kept ones, in order. */
  function Survivors(items: seq<JValue>): (r: seq<Message>)
    ensures |r| <= |items|
    ensures forall m :: m in r <==> exists i :: 0 <= i < |items| && Remember(items[i]) == Some(m)
    ensures forall m :: m in r ==> ValidMemory(m)
  {
    forall m
      ensures m in FilterMap(Remember, items) <==> exists i :: 0 <= i < |items| && Remember(items[i]) == Some(m)
    {
      FilterMapExact(Remember, items, m);
    }
    FilterMap(Remember, items)
  }

  /** `caller_memory["messages"][:50]` when the memory is a dict holding a
      list there; nothing otherwise. */
  function RememberedItems(callerMemory: JValue): (items: seq<JValue>)
    ensures |items| <= MaxRemembered
    // The first fifty stored items, all of them when there are fewer ...
    ensures callerMemory.JDict? && Get(callerMemory, "messages").JList? ==>
              var all := Get(callerMemory, "messages").items;
              |items| == (if |all| < MaxRemembered then |all| else MaxRemembered)
              && items == all[..|items|]
    // ... and none when the memory holds no list of messages.
    ensures !(callerMemory.JDict? && Get(callerMemory, "messages").JList?) ==> items == []
  {
    var mem := Get(callerMemory, "messages");
    if callerMemory.JDict? && mem.JList? then
      mem.items[..if |mem.items| > MaxRemembered then MaxRemembered else |mem.items|]
    else []
  }

  /** The initial context: the system prompt when it is non-empty, then the
      preamble (`meta` when given) and the surviving memory, when any. */
  function InitialMessages(prompt: string, callerMemory: JValue): (r: seq<Message>)
    ensures prompt != "" ==> |r| > 0 && r[0] == Message("system", prompt)
    ensures var base := if prompt != "" then 1 else 0;
            var kept := Survivors(RememberedItems(callerMemory));
            && (|kept| == 0 ==> |r| == base)
            && (|kept| > 0 ==> |r| == base + 1 + |kept| && r[base].role == "system" && r[base + 1..] == kept)
    ensures |r| <= 2 + MaxRemembered
  {
    var base := if prompt != "" then [Message("system", prompt)] else [];
    var kept := Survivors(RememberedItems(callerMemory));
    if |kept| == 0 then base
    else
      var meta := Strip(TextOf(Get(callerMemory, "meta")));
      base + [Message("system", if meta != "" then meta else DefaultPreamble)] + kept
  }

  /** The preamble is the stripped `meta` when that is non-blank, and the
      fixed default otherwise. */
  lemma PreambleText(prompt: string, callerMemory: JValue)
    requires |Survivors(RememberedItems(callerMemory))| > 0
    ensures var base := if prompt != "" then 1 else 0;
            var meta := TextOf(Get(callerMemory, "meta"));
            InitialMessages(prompt, callerMemory)[base].content
            == if IsBlank(meta) then DefaultPreamble else Strip(meta)
  {
  }

  /** Items past the fiftieth are never looked at: two memories that agree
      on `meta` and on their first fifty items seed the same context. */
  lemma OnlyFirstFiftyMatter(prompt: string, a: seq<JValue>, b: seq<JValue>, meta: JValue)
    requires |a| >= MaxRemembered && |b| >= MaxRemembered && a[..MaxRemembered] == b[..MaxRemembered]
    ensures InitialMessages(prompt, JDict([("meta", meta), ("messages", JList(a))]))
            == InitialMessages(prompt, JDict([("meta", meta), ("messages", JList(b))]))
  {
    var ma := JDict([("meta", meta), ("messages", JList(a))]);
    var mb := JDict([("meta", meta), ("messages", JList(b))]);
    LookupFirst(ma.entries, "messages", 1);
    LookupFirst(mb.entries, "messages", 1);
    LookupFirst(ma.entries, "meta", 0);
    LookupFirst(mb.entries, "meta", 0);
    assert RememberedItems(ma) == RememberedItems(mb);
  }
}

=== FILE: heygen_video.dfy ===
/** `ContinuousListeningHeyGenVideoService`: the HeyGen avatar adapter. Any
    failure of the avatar connection switches the meeting to audio-only for
    good (the shared one-way degrade); from then on every frame passes
    straight through. The send loop cuts resampled speech into chunks of
    the avatar's chunk size. */
module HeyGenVideo {
  import opened Prelude
  import opened AvatarFallback

  /** The frame kinds this adapter tells apart. */
  datatype Frame =
    | UserStoppedSpeakingFrame
    | TtsAudioFrame(audio: seq<byte>)
    | OtherFrame(tag: nat)

  /** The internal send task: not started, running, or finished with the
      exception it ended with (`None` when it ended cleanly). A cancelled
      task is not modelled. */
  datatype SendTask = NotStarted | Running | Finished(error: Option<string>)

  /** The adapter's fields that the frame handling reads: the degrade
      state, the send task and the websocket's `_connected` flag. */
  datatype HeyGenState = HeyGenState(fallback: Degrade, sendTask: SendTask, connected: bool)

  /** What one frame leads to: the new state, the frames pushed on
      directly, and whether the frame was handed to the inherited HeyGen
      processing (which streams it to the avatar). */
  datatype StepResult = StepResult(state: HeyGenState, pushed: seq<Frame>, delegated: bool)

  /** The reason recorded when the send task has ended:
      `f"send task ended unexpectedly: {exc or 'unknown'}"`. */
  function SendTaskReason(error: Option<string>): string
  {
    "send task ended unexpectedly: " + (if error.Some? then error.value else "unknown")
  }

  /** `process_frame`. `spawn` is how scheduling the shutdown would go. */
  function Step(st: HeyGenState, f: Frame, spawn: Spawn): (r: StepResult)
    // Every frame is either pushed on once, unchanged, or handed on; never both.
    ensures r.delegated <==> r.pushed == []
    ensures !r.delegated ==> r.pushed == [f]
    // Audio-only: everything passes through and nothing changes.
    ensures st.fallback.disabled ==> r == StepResult(st, [f], false)
    // Only the fallback state can change, and only towards degraded.
    ensures r.state == st.(fallback := r.state.fallback)
    ensures st.fallback.disabled ==> r.state.fallback.disabled
    // A crashed send task or speech without a websocket degrades the avatar.
    ensures st.sendTask.Finished? ==> r.state.fallback.disabled && !r.delegated
    ensures !st.sendTask.Finished? && f.TtsAudioFrame? && !st.connected ==> r.state.fallback.disabled
    // The avatar handles a frame only while it is healthy, and never sees
    // the end of user speech.
    ensures r.delegated ==> !r.state.fallback.disabled && !f.UserStoppedSpeakingFrame?
                            && (f.TtsAudioFrame? ==> st.connected)
  {
    if st.fallback.disabled then StepResult(st, [f], false)
    else if st.sendTask.Finished? then
      var t := Disable(st.fallback, SendTaskReason(st.sendTask.error), spawn);
      StepResult(st.(fallback := t.state), [f], false)
    else if f.UserStoppedSpeakingFrame? then StepResult(st, [f], false)
    else if f.TtsAudioFrame? && !st.connected then
      var t := Disable(st.fallback, "websocket not connected", spawn);
      StepResult(st.(fallback := t.state), [f], false)
    else StepResult(st, [], true)
  }

  /** Once in audio-only mode, any sequence of frames passes through
      unchanged and leaves the state as it is. */
  lemma {:induction false} AudioOnlyIsPassthrough(st: HeyGenState, frames: seq<Frame>, spawns: seq<Spawn>)
    requires st.fallback.disabled && |spawns| == |frames|
    ensures RunFrames(st, frames, spawns) == (st, frames)
  {
    if |frames| > 0 {
      AudioOnlyIsPassthrough(st, frames[..|frames| - 1], spawns[..|spawns| - 1]);
      InitLast(frames);
    }
  }

  /** Run frames through `process_frame`: the final state and all frames
      pushed on directly. */
  function RunFrames(st: HeyGenState, frames: seq<Frame>, spawns: seq<Spawn>): (HeyGenState, seq<Frame>)
    requires |spawns| == |frames|
  {
    if |frames| == 0 then (st, [])
    else
      var prev := RunFrames(st, frames[..|frames| - 1], spawns[..|spawns| - 1]);
      var r := Step(prev.0, frames[|frames| - 1], spawns[|spawns| - 1]);
      (r.state, prev.1 + r.pushed)
  }

  /** The inner loop of `_send_task_handler`: append the resampled audio to
      the buffer, then send full chunks while the buffer holds at least one.
      `speakOk(k)` is whether the `k`-th `agent_speak` call succeeds; a
      failure enters the fallback and ends the loop. */
  method SendChunks(buffer: seq<byte>, audio: seq<byte>, chunkSize: nat, speakOk: nat -> bool)
    returns (chunks: seq<seq<byte>>, rest: seq<byte>, failed: bool)
    requires chunkSize > 0
    // Nothing is lost or reordered.
    ensures Concat(chunks) + rest == buffer + audio
    // Every chunk handed to the avatar is exactly the chunk size.
    ensures forall k :: 0 <= k < |chunks| ==> |chunks[k]| == chunkSize
    // Every call before the last one succeeded.
    ensures forall k :: 0 <= k < |chunks| - 1 ==> speakOk(k)
    // The loop stops at the first failed call ...
    ensures failed <==> |chunks| > 0 && !speakOk(|chunks| - 1)
    // ... or when less than one chunk is left.
    ensures !failed ==> |rest| < chunkSize
  {
    var buf := buffer + audio;
    chunks := [];
    failed := false;
    while |buf| >= chunkSize
      invariant Concat(chunks) + buf == buffer + audio
      invariant forall k :: 0 <= k < |chunks| ==> |chunks[k]| == chunkSize
      invariant forall k :: 0 <= k < |chunks| ==> speakOk(k)
      decreases |buf|
    {
      var chunk := buf[..chunkSize];
      ConcatSnoc(chunks, chunk);
      assert chunk + buf[chunkSize..] == buf;
      chunks := chunks + [chunk];
      buf := buf[chunkSize..];
      if !speakOk(|chunks| - 1) {
        failed := true;
        rest := buf;
        return;
      }
    }
    rest := buf;
  }

  /** When no call fails, the number of chunks sent is the whole number of
      chunks in the buffered audio and the leftover is the remainder. */
  lemma {:induction false} ChunkCount(buffer: seq<byte>, audio: seq<byte>, chunkSize: nat,
                                      chunks: seq<seq<byte>>, rest: seq<byte>)
    requires chunkSize > 0
    requires Concat(chunks) + rest == buffer + audio
    requires forall k :: 0 <= k < |chunks| ==> |chunks[k]| == chunkSize
    requires |rest| < chunkSize
    ensures |chunks| == (|buffer| + |audio|) / chunkSize
    ensures |rest| == (|buffer| + |audio|) % chunkSize
  {
    ConcatLength(chunks, chunkSize);
    assert |buffer| + |audio| == |chunks| * chunkSize + |rest|;
    DivModUnique(|buffer| + |audio|, |chunks|, |rest|, chunkSize);
  }
}

=== FILE: prelude.dfy ===
/** Shared vocabulary for the whole model: bytes, optional values and
    sequence concatenation. */
module Prelude {

  /** One octet of a Python `bytes` object. */
  newtype byte = x: int | 0 <= x < 256

  /** Python's `None`-or-value. */
  datatype Option<+T> = None | Some(value: T)

  /** `b"".join(parts)` / `"".join(parts)`: the parts laid end to end. */
  function Concat<T>(parts: seq<seq<T>>): (r: seq<T>)
  {
    if |parts| == 0 then [] else Concat(parts[..|parts| - 1]) + parts[|parts| - 1]
  }

  /** Joining one more part appends it. */
  lemma ConcatSnoc<T>(parts: seq<seq<T>>, p: seq<T>)
    ensures Concat(parts + [p]) == Concat(parts) + p
  {
    assert (parts + [p])[..|parts|] == parts;
  }

  /** A non-empty sequence is its front followed by its last element. */
  lemma InitLast<T>(s: seq<T>)
    requires |s| > 0
    ensures s[..|s| - 1] + [s[|s| - 1]] == s
  {
  }

  /** Joining parts that all have length `k` gives `|parts| * k` elements. */
  lemma {:induction false} ConcatLength<T>(parts: seq<seq<T>>, k: nat)
    requires forall i :: 0 <= i < |parts| ==> |parts[i]| == k
    ensures |Concat(parts)| == |parts| * k
  {
    if |parts| > 0 {
      ConcatLength(parts[..|parts| - 1], k);
    }
  }

  /** Euclidean division has a unique quotient and remainder. */
  lemma DivModUnique(a: int, q: int, r: int, n: int)
    requires n > 0 && 0 <= r < n && a == q * n + r
    ensures a % n == r && a / n == q
  {
    var d := a / n - q;
    assert d * n == r - a % n;
    MulAwayFromZero(d, n);
  }

  lemma MulAwayFromZero(d: int, n: int)
    requires n > 0
    ensures d >= 1 ==> d * n >= n
    ensures d <= -1 ==> d * n <= -n
  {
  }

  /** `[g(x) for x in xs if keep(x)]` with the test and the mapping fused:
      the values of `f` that are present, in order. */
  function FilterMap<A, B>(f: A -> Option<B>, xs: seq<A>): (r: seq<B>)
    ensures |r| <= |xs|
  {
    if |xs| == 0 then []
    else
      var prev := FilterMap(f, xs[..|xs| - 1]);
      var y := f(xs[|xs| - 1]);
      if y.Some? then prev + [y.value] else prev
  }

  /** A value is in the result exactly when `f` yields it for some element. */
  lemma {:induction false} FilterMapExact<A, B>(f: A -> Option<B>, xs: seq<A>, y: B)
    ensures y in FilterMap(f, xs) <==> exists i :: 0 <= i < |xs| && f(xs[i]) == Some(y)
  {
    if |xs| > 0 {
      var init := xs[..|xs| - 1];
      FilterMapExact(f, init, y);
      forall i | 0 <= i < |init|
        ensures xs[i] == init[i]
      {
      }
      if f(xs[|xs| - 1]) != Some(y) && exists i :: 0 <= i < |xs| && f(xs[i]) == Some(y) {
        var i :| 0 <= i < |xs| && f(xs[i]) == Some(y);
        assert i < |init| && f(init[i]) == Some(y);
      }
    }
  }

  /** `any(p(x) for x in xs)`, scanning from the front and stopping at the
      first hit. */
  function Any<T>(p: T -> bool, xs: seq<T>): (r: bool)
    ensures r <==> exists i :: 0 <= i < |xs| && p(xs[i])
  {
    if |xs| == 0 then false
    else if p(xs[0]) then true
    else
      var rest := Any(p, xs[1..]);
      assert forall i :: 1 <= i < |xs| ==> xs[1..][i - 1] == xs[i];
      rest
  }
}

=== FILE: pyjson.dfy ===
/** Decoded JSON values as the request and context code sees them, with
    the Python operations it applies to them: truthiness, `dict.get`,
    the `a or b` chain and `str()`. */
module PyJson {
  import opened PyText

  /** A value produced by `json.loads` (numbers restricted to integers).
      A dict keeps its entries in insertion order. */
  datatype JValue =
    | JNull
    | JBool(b: bool)
    | JInt(i: int)
    | JStr(s: string)
    | JList(items: seq<JValue>)
    | JDict(entries: seq<(string, JValue)>)

  /** Python truthiness: `None`, `False`, `0` and empty containers are false. */
  predicate Truthy(v: JValue)
  {
    match v
    case JNull => false
    case JBool(b) => b
    case JInt(i) => i != 0
    case JStr(s) => s != ""
    case JList(items) => |items| > 0
    case JDict(entries) => |entries| > 0
  }

  /** The dict has an entry for `k`. */
  predicate HasKey(entries: seq<(string, JValue)>, k: string)
  {
    exists i :: 0 <= i < |entries| && entries[i].0 == k
  }

  /** `d.get(k)`: the value stored under `k`, `None` if absent. For an
      entry list with a repeated key this reads the first entry. */
  function Lookup(entries: seq<(string, JValue)>, k: string): JValue
  {
    if |entries| == 0 then JNull
    else if entries[0].0 == k then entries[0].1
    else Lookup(entries[1..], k)
  }

  /** A missing key reads as `None`; a present one as the value of one of
      its entries. */
  lemma {:induction false} LookupFound(entries: seq<(string, JValue)>, k: string)
    ensures !HasKey(entries, k) ==> Lookup(entries, k) == JNull
    ensures HasKey(entries, k) ==> exists i :: 0 <= i < |entries| && entries[i] == (k, Lookup(entries, k))
  {
    if |entries| > 0 && entries[0].0 != k {
      var rest := entries[1..];
      LookupFound(rest, k);
      forall i | 0 <= i < |rest|
        ensures rest[i] == entries[i + 1]
      {
      }
      if HasKey(entries, k) {
        var i :| 0 <= i < |entries| && entries[i].0 == k;
        assert rest[i - 1].0 == k;
        var j :| 0 <= j < |rest| && rest[j] == (k, Lookup(rest, k));
        assert entries[j + 1] == (k, Lookup(entries, k));
      }
    }
  }

  /** The lookup finds the first entry for `k`. */
  lemma {:induction false} LookupFirst(entries: seq<(string, JValue)>, k: string, i: nat)
    requires i < |entries| && entries[i].0 == k
    requires forall j :: 0 <= j < i ==> entries[j].0 != k
    ensures Lookup(entries, k) == entries[i].1
  {
    if i > 0 {
      assert entries[0].0 != k;
      LookupFirst(entries[1..], k, i - 1);
    }
  }

  /** A key no entry has is looked up as `None`. */
  lemma {:induction false} LookupAbsent(entries: seq<(string, JValue)>, k: string)
    requires forall j :: 0 <= j < |entries| ==> entries[j].0 != k
    ensures Lookup(entries, k) == JNull
  {
    if |entries| > 0 {
      LookupAbsent(entries[1..], k);
    }
  }

  /** `v.get(k)` on a value known to be a dict; any other value yields `None`. */
  function Get(v: JValue, k: string): JValue
  {
    if v.JDict? then Lookup(v.entries, k) else JNull
  }

  /** `vs[0] or vs[1] or ... or vs[n-1]`: the first truthy value, or the
      last value when none is truthy (`None` for no values). */
  function OrChain(vs: seq<JValue>): JValue
  {
    if |vs| == 0 then JNull
    else if |vs| == 1 || Truthy(vs[0]) then vs[0]
    else OrChain(vs[1..])
  }

  /** `vs[i]` is the first truthy value. */
  predicate FirstTruthyAt(vs: seq<JValue>, i: int)
  {
    0 <= i < |vs| && Truthy(vs[i]) && forall j :: 0 <= j < i ==> !Truthy(vs[j])
  }

  /** The `or` chain is truthy exactly when some value is, and then it is
      the first truthy value; otherwise it is the last value. */
  lemma {:induction false} OrChainFirstTruthy(vs: seq<JValue>)
    ensures Truthy(OrChain(vs)) <==> exists i :: 0 <= i < |vs| && Truthy(vs[i])
    ensures forall i :: FirstTruthyAt(vs, i) ==> OrChain(vs) == vs[i]
    ensures |vs| > 0 && !Truthy(OrChain(vs)) ==> OrChain(vs) == vs[|vs| - 1]
  {
    if |vs| > 1 && !Truthy(vs[0]) {
      OrChainFirstTruthy(vs[1..]);
      forall i | 0 <= i < |vs[1..]| && Truthy(vs[1..][i])
        ensures Truthy(vs[i + 1])
      {
      }
      forall i | FirstTruthyAt(vs, i)
        ensures OrChain(vs) == vs[i]
      {
        assert FirstTruthyAt(vs[1..], i - 1);
      }
    }
  }

  /** `str(v)`. Containers are rendered by a fixed placeholder rather
      than Python's rendering of their contents. */
  function Str(v: JValue): string
  {
    match v
    case JNull => "None"
    case JBool(b) => if b then "True" else "False"
    case JInt(i) => IntToString(i)
    case JStr(s) => s
    case JList(_) => "[...]"
    case JDict(_) => "{...}"
  }

  /** `str(v or "")`: the text of a truthy value, `""` for a falsy one. */
  function TextOf(v: JValue): (r: string)
    ensures r == "" <==> !Truthy(v)
  {
    if Truthy(v) then Str(v) else ""
  }

  /** `str(v or "").strip().lower()`. */
  function NormalText(v: JValue): string
  {
    Normalize(TextOf(v))
  }
}

=== FILE: pytext.dfy ===
/** The few Python `str` operations the modelled code relies on:
    `isspace`/`strip`, `lower`/`upper`, the substring test `k in t`, and
    `str(n)` for integers. */
module PyText {

  /** `c.isspace()`: exactly the code points Python treats as whitespace
      (bidirectional class WS, B or S, or category Zs). */
  predicate IsSpace(c: char)
  {
    var n := c as int;
    (9 <= n <= 13) || (28 <= n <= 32) || n == 0x85 || n == 0xA0 || n == 0x1680
    || (0x2000 <= n <= 0x200A) || n == 0x2028 || n == 0x2029 || n == 0x202F
    || n == 0x205F || n == 0x3000
  }

  /** A string that `strip()` reduces to `""`. */
  predicate IsBlank(s: string)
  {
    forall i :: 0 <= i < |s| ==> IsSpace(s[i])
  }

  /** `s.lstrip()`: the suffix left after dropping leading whitespace. */
  function LStrip(s: string): (r: string)
    ensures |r| <= |s| && r == s[|s| - |r|..]
    ensures forall i :: 0 <= i < |s| - |r| ==> IsSpace(s[i])
    ensures |r| > 0 ==> !IsSpace(r[0])
  {
    if |s| > 0 && IsSpace(s[0]) then LStrip(s[1..]) else s
  }

  /** `s.rstrip()`: the prefix left after dropping trailing whitespace. */
  function RStrip(s: string): (r: string)
    ensures |r| <= |s| && r == s[..|r|]
    ensures forall i :: |r| <= i < |s| ==> IsSpace(s[i])
    ensures |r| > 0 ==> !IsSpace(r[|r| - 1])
  {
    if |s| > 0 && IsSpace(s[|s| - 1]) then RStrip(s[..|s| - 1]) else s
  }

  /** `s.strip()`: the slice of `s` between its leading and trailing
      whitespace; empty exactly when `s` is blank. */
  function Strip(s: string): (r: string)
    ensures |r| <= |s|
    ensures r == "" <==> IsBlank(s)
    ensures |r| > 0 ==> !IsSpace(r[0]) && !IsSpace(r[|r| - 1])
  {
    StripBlank(s);
    RStrip(LStrip(s))
  }

  /** The stripped text is the slice of `s` that starts right after the
      leading whitespace. */
  lemma StripSlice(s: string)
    ensures var lo := |s| - |LStrip(s)|; var r := Strip(s);
            lo + |r| <= |s| && r == s[lo..lo + |r|]
  {
    var l := LStrip(s);
    var lo := |s| - |l|;
    var r := RStrip(l);
    assert l == s[lo..];
    SliceOfSuffix(s, lo, |r|);
  }

  /** Both strips leave nothing exactly when every character is whitespace. */
  lemma StripBlank(s: string)
    ensures RStrip(LStrip(s)) == "" <==> IsBlank(s)
  {
    var l := LStrip(s);
    var lo := |s| - |l|;
    assert forall j :: 0 <= j < |l| ==> l[j] == s[lo + j];
    if RStrip(l) == "" {
      assert IsBlank(l);
    }
  }

  lemma SliceOfSuffix(s: string, lo: nat, n: nat)
    requires lo + n <= |s|
    ensures s[lo..][..n] == s[lo..lo + n]
  {
  }

  /** Stripping a string that starts and ends with a non-space character
      gives it back unchanged. */
  lemma StripUnpadded(s: string)
    requires |s| > 0 && !IsSpace(s[0]) && !IsSpace(s[|s| - 1])
    ensures Strip(s) == s
  {
  }

  /** `strip()` is idempotent. */
  lemma StripIdempotent(s: string)
    ensures Strip(Strip(s)) == Strip(s)
  {
    var r := Strip(s);
    if |r| > 0 {
      StripUnpadded(r);
    }
  }

  /** `c.lower()` on the ASCII letters; every other character is kept. */
  function LowerChar(c: char): char
  {
    if 'A' <= c <= 'Z' then (c as int + 32) as char else c
  }

  /** `c.upper()` on the ASCII letters; every other character is kept. */
  function UpperChar(c: char): char
  {
    if 'a' <= c <= 'z' then (c as int - 32) as char else c
  }

  /** `s.lower()`, character by character. */
  function Lower(s: string): (r: string)
    ensures |r| == |s|
    ensures forall i :: 0 <= i < |s| ==> r[i] == LowerChar(s[i])
  {
    seq(|s|, i requires 0 <= i < |s| => LowerChar(s[i]))
  }

  /** `s.upper()`, character by character. */
  function Upper(s: string): (r: string)
    ensures |r| == |s|
    ensures forall i :: 0 <= i < |s| ==> r[i] == UpperChar(s[i])
  {
    seq(|s|, i requires 0 <= i < |s| => UpperChar(s[i]))
  }

  /** Lower-casing never produces an upper-case ASCII letter, so a second
      `lower()` changes nothing. */
  lemma LowerIdempotent(s: string)
    ensures Lower(Lower(s)) == Lower(s)
  {
  }

  /** `k` occurs in `t` starting at index `i`. */
  predicate OccursAt(t: string, k: string, i: int)
  {
    0 <= i && i + |k| <= |t| && t[i..i + |k|] == k
  }

  /** Python's `k in t` for two strings. */
  predicate Contains(t: string, k: string)
  {
    exists i | 0 <= i <= |t| - |k| :: OccursAt(t, k, i)
  }

  /** The decimal digit for `d`. */
  function Digit(d: int): char
    requires 0 <= d < 10
  {
    "0123456789"[d]
  }

  /** `str(n)` for a non-negative integer: its decimal digits. */
  function NatToString(n: nat): (r: string)
    ensures |r| > 0
    ensures forall i :: 0 <= i < |r| ==> '0' <= r[i] <= '9'
  {
    if n < 10 then [Digit(n)] else NatToString(n / 10) + [Digit(n % 10)]
  }

  /** `str(n)` for any Python `int`. */
  function IntToString(n: int): (r: string)
    ensures |r| > 0
  {
    if n < 0 then "-" + NatToString(-n) else NatToString(n)
  }

  /** `s.strip().lower()`, the normal form of every option and role string. */
  function Normalize(s: string): (r: string)
    ensures |r| <= |s|
    ensures r == "" <==> IsBlank(s)
  {
    Lower(Strip(s))
  }

  /** A normalized string is already stripped and lower-cased, so
      normalizing it again changes nothing. */
  lemma NormalizeIdempotent(s: string)
    ensures var r := Normalize(s); Strip(r) == r && Lower(r) == r && Normalize(r) == r
  {
    var t := Strip(s);
    var r := Lower(t);
    if |r| > 0 {
      assert !IsSpace(r[0]) && !IsSpace(r[|r| - 1]);
      StripUnpadded(r);
    }
    LowerIdempotent(t);
  }

  /** `sep.join(parts)`. */
  function Join(sep: string, parts: seq<string>): (r: string)
  {
    if |parts| == 0 then ""
    else if |parts| == 1 then parts[0]
    else Join(sep, parts[..|parts| - 1]) + sep + parts[|parts| - 1]
  }
}

=== FILE: request_body.dfy ===
/** The session-start body parsers: where the dial-in call, the dial-out
    target and the session mode are found in a loosely shaped JSON body.
    Every key has snake_case and camelCase spellings, tried in a fixed
    order with Python's `or`, so an empty or false value falls through to
    the next spelling. */
module RequestBody {
  import opened Prelude
  import opened PyText
  import opened PyJson

  /** `DailyDialinSettings(call_id=..., call_domain=...)`. */
  datatype Dialin = Dialin(callId: string, callDomain: string)

  /** The nested dial-in settings: the first truthy of the three spellings
      when that is a dict, otherwise an empty dict. */
  function DialinSection(body: JValue): (d: JValue)
    ensures d.JDict?
    // The first spelling holding a truthy value is used when it is a dict ...
    ensures forall i :: FirstTruthyAt(DialinSections(body), i) && DialinSections(body)[i].JDict?
                        ==> d == DialinSections(body)[i]
    // ... and otherwise the section is empty.
    ensures forall i :: FirstTruthyAt(DialinSections(body), i) && !DialinSections(body)[i].JDict?
                        ==> d == JDict([])
    ensures !AnyTruthy(DialinSections(body)) ==> d == JDict([])
  {
    OrChainFirstTruthy(DialinSections(body));
    var s := OrChain(DialinSections(body));
    if s.JDict? then s else JDict([])
  }

  /** Where the nested dial-in settings are looked for, in order. */
  function DialinSections(body: JValue): seq<JValue>
  {
    [Get(body, "dialin_settings"), Get(body, "dialinSettings"), Get(body, "dialin")]
  }

  /** Where the call id is looked for, in order: the nested settings
      first, then the top level. */
  function CallIdCandidates(body: JValue): seq<JValue>
  {
    var d := DialinSection(body);
    [Get(d, "call_id"), Get(d, "callId"), Get(body, "call_id"), Get(body, "callId")]
  }

  function CallDomainCandidates(body: JValue): seq<JValue>
  {
    var d := DialinSection(body);
    [Get(d, "call_domain"), Get(d, "callDomain"), Get(body, "call_domain"), Get(body, "callDomain")]
  }

  /** Some value in the list is truthy. */
  predicate AnyTruthy(vs: seq<JValue>)
  {
    exists i :: 0 <= i < |vs| && Truthy(vs[i])
  }

  /** `_extract_dialin_settings`: a dial-in exactly when the body is a dict
      and both a call id and a call domain are found, each taken from the
      first spelling that holds a truthy value. */
  function ExtractDialin(body: JValue): (r: Option<Dialin>)
    ensures !body.JDict? ==> r.None?
    ensures r.Some? <==> body.JDict? && AnyTruthy(CallIdCandidates(body)) && AnyTruthy(CallDomainCandidates(body))
    ensures forall i, j :: r.Some? && FirstTruthyAt(CallIdCandidates(body), i)
                           && FirstTruthyAt(CallDomainCandidates(body), j)
                           ==> r.value == Dialin(Str(CallIdCandidates(body)[i]), Str(CallDomainCandidates(body)[j]))
  {
    if !body.JDict? then None
    else
      var ids, domains := CallIdCandidates(body), CallDomainCandidates(body);
      OrChainFirstTruthy(ids);
      OrChainFirstTruthy(domains);
      var id, domain := OrChain(ids), OrChain(domains);
      if Truthy(id) && Truthy(domain) then Some(Dialin(Str(id), Str(domain))) else None
  }

  /** Nested camelCase settings are used before top-level snake_case keys. */
  lemma DialinNestedFirst()
    ensures ExtractDialin(JDict([("dialinSettings", JDict([("callId", JStr("abc"))])),
                                 ("call_domain", JStr("d.example"))]))
            == Some(Dialin("abc", "d.example"))
  {
    var d := JDict([("callId", JStr("abc"))]);
    var body := JDict([("dialinSettings", d), ("call_domain", JStr("d.example"))]);
    LookupAbsent(body.entries, "dialin_settings");
    LookupFirst(body.entries, "dialinSettings", 0);
    OrChainFirstTruthy([JNull, d, Get(body, "dialin")]);
    assert FirstTruthyAt([JNull, d, Get(body, "dialin")], 1);
    assert DialinSection(body) == d;
    LookupAbsent(d.entries, "call_id");
    LookupFirst(d.entries, "callId", 0);
    OrChainFirstTruthy(CallIdCandidates(body));
    assert FirstTruthyAt(CallIdCandidates(body), 1);
    LookupAbsent(d.entries, "call_domain");
    LookupAbsent(d.entries, "callDomain");
    LookupFirst(body.entries, "call_domain", 1);
    OrChainFirstTruthy(CallDomainCandidates(body));
    assert FirstTruthyAt(CallDomainCandidates(body), 2);
  }

  /** A truthy nested section that is not a dict hides a later spelling
      that is one. */
  lemma DialinNonDictSection()
    ensures ExtractDialin(JDict([("dialin_settings", JStr("x")),
                                 ("dialin", JDict([("call_id", JStr("abc")), ("call_domain", JStr("d"))]))]))
            == None
  {
    var d := JDict([("call_id", JStr("abc")), ("call_domain", JStr("d"))]);
    var body := JDict([("dialin_settings", JStr("x")), ("dialin", d)]);
    LookupFirst(body.entries, "dialin_settings", 0);
    assert DialinSection(body) == JDict([]);
    LookupAbsent(body.entries, "call_id");
    LookupAbsent(body.entries, "callId");
    OrChainFirstTruthy(CallIdCandidates(body));
  }

  /** The dial-out target: the first truthy spelling, or the first element
      when that is a list (`None` for an empty list). */
  function DialoutSection(body: JValue): JValue
  {
    var s := OrChain([Get(body, "dialout_settings"), Get(body, "dialoutSettings"), Get(body, "dialout")]);
    if s.JList? then (if |s.items| > 0 then s.items[0] else JNull) else s
  }

  function PhoneOf(d: JValue): JValue
  {
    OrChain([Get(d, "phone_number"), Get(d, "phoneNumber"), Get(d, "to"), Get(d, "to_number"), Get(d, "toNumber")])
  }

  function CallerIdOf(d: JValue): JValue
  {
    OrChain([Get(d, "caller_id"), Get(d, "callerId"), Get(d, "from"), Get(d, "from_number"), Get(d, "fromNumber")])
  }

  function DisplayNameOf(d: JValue): JValue
  {
    OrChain([Get(d, "display_name"), Get(d, "displayName")])
  }

  /** `{k: v for k, v in d.items() if v is not None}`. */
  function NonNull(entries: seq<(string, JValue)>): (r: seq<(string, JValue)>)
    ensures |r| <= |entries|
    ensures forall e :: e in r <==> e in entries && e.1 != JNull
  {
    if |entries| == 0 then []
    else
      var prev := NonNull(entries[..|entries| - 1]);
      var last := entries[|entries| - 1];
      assert entries == entries[..|entries| - 1] + [last];
      if last.1 == JNull then prev else prev + [last]
  }

  /** `if v and k not in s: s[k] = str(v)`; a new key goes at the end. */
  function SetDefault(s: seq<(string, JValue)>, k: string, v: JValue): (r: seq<(string, JValue)>)
    ensures HasKey(r, k) <==> HasKey(s, k) || Truthy(v)
    ensures !HasKey(s, k) && Truthy(v) ==> r == s + [(k, JStr(Str(v)))]
    ensures HasKey(s, k) || !Truthy(v) ==> r == s
    ensures |s| <= |r| && r[..|s|] == s
  {
    if Truthy(v) && !HasKey(s, k) then
      assert (s + [(k, JStr(Str(v)))])[|s|].0 == k;
      s + [(k, JStr(Str(v)))]
    else s
  }

  /** `_extract_dialout_settings`, before the final emptiness test. */
  function DialoutEntries(d: JValue): (r: seq<(string, JValue)>)
    requires d.JDict?
    ensures forall e :: e in r ==> e.1 != JNull
    ensures |NonNull(d.entries)| <= |r| && r[..|NonNull(d.entries)|] == NonNull(d.entries)
    ensures HasKey(r, "phoneNumber") <==> HasKey(NonNull(d.entries), "phoneNumber") || Truthy(PhoneOf(d))
    ensures HasKey(r, "callerId") <==> HasKey(NonNull(d.entries), "callerId") || Truthy(CallerIdOf(d))
    ensures HasKey(r, "displayName") <==> HasKey(NonNull(d.entries), "displayName") || Truthy(DisplayNameOf(d))
    // At most the three canonical entries are appended, each holding the
    // text of the value found under another spelling.
    ensures |r| <= |NonNull(d.entries)| + 3
    ensures forall j :: |NonNull(d.entries)| <= j < |r| ==> CanonicalEntry(d, r[j])
  {
    var s0 := NonNull(d.entries);
    var s1 := SetDefault(s0, "phoneNumber", PhoneOf(d));
    var s2 := SetDefault(s1, "callerId", CallerIdOf(d));
    var s3 := SetDefault(s2, "displayName", DisplayNameOf(d));
    AppendKeepsKeys(s0, s1, "callerId");
    AppendKeepsKeys(s0, s1, "displayName");
    AppendKeepsKeys(s1, s2, "phoneNumber");
    AppendKeepsKeys(s1, s2, "displayName");
    AppendKeepsKeys(s2, s3, "phoneNumber");
    AppendKeepsKeys(s2, s3, "callerId");
    assert s3[..|s0|] == s2[..|s1|][..|s0|];
    AppendedCanonical(d, s0, s1, s2, s3);
    s3
  }

  /** The three `SetDefault` steps append only canonical entries. */
  lemma AppendedCanonical(d: JValue, s0: seq<(string, JValue)>, s1: seq<(string, JValue)>,
                          s2: seq<(string, JValue)>, s3: seq<(string, JValue)>)
    requires s1 == SetDefault(s0, "phoneNumber", PhoneOf(d))
    requires s2 == SetDefault(s1, "callerId", CallerIdOf(d))
    requires s3 == SetDefault(s2, "displayName", DisplayNameOf(d))
    ensures |s3| <= |s0| + 3
    ensures forall j :: |s0| <= j < |s3| ==> CanonicalEntry(d, s3[j])
  {
    forall j | |s0| <= j < |s3|
      ensures CanonicalEntry(d, s3[j])
    {
      if j < |s1| {
        assert s3[j] == s2[j] == s1[j];
      } else if j < |s2| {
        assert s3[j] == s2[j];
      }
    }
  }

  /** One of the entries `_extract_dialout_settings` may add to the copied
      dict: a canonical key holding `str()` of the value found for it. */
  predicate CanonicalEntry(d: JValue, e: (string, JValue))
  {
    e == ("phoneNumber", JStr(Str(PhoneOf(d))))
    || e == ("callerId", JStr(Str(CallerIdOf(d))))
    || e == ("displayName", JStr(Str(DisplayNameOf(d))))
  }

  /** `SetDefault` under key `k'` leaves the presence of every other key
      `k` as it was. */
  lemma AppendKeepsKeys(s: seq<(string, JValue)>, t: seq<(string, JValue)>, k: string)
    requires t == s || (|t| == |s| + 1 && t[..|s|] == s && t[|s|].0 != k)
    ensures HasKey(t, k) <==> HasKey(s, k)
  {
    if HasKey(t, k) {
      var i :| 0 <= i < |t| && t[i].0 == k;
      assert t[i] == s[i];
    }
    if HasKey(s, k) {
      var i :| 0 <= i < |s| && s[i].0 == k;
      assert t[i] == s[i];
    }
  }

  /** `_extract_dialout_settings`: the non-null entries of the dial-out
      dict, in order, followed by canonical `phoneNumber`, `callerId` and
      `displayName` keys for whichever of them is missing but found under
      another spelling; `None` when nothing is left. */
  function ExtractDialout(body: JValue): (r: Option<seq<(string, JValue)>>)
    ensures !body.JDict? || !DialoutSection(body).JDict? ==> r.None?
    ensures r.Some? <==> body.JDict? && DialoutSection(body).JDict? && |DialoutEntries(DialoutSection(body))| > 0
    ensures r.Some? ==> r.value == DialoutEntries(DialoutSection(body))
  {
    if !body.JDict? then None
    else
      var d := DialoutSection(body);
      if !d.JDict? then None
      else
        var s := DialoutEntries(d);
        if |s| > 0 then Some(s) else None
  }

  /** A dial-out dict with a truthy phone number under any spelling always
      yields settings, and the canonical key then holds its text. */
  lemma PhoneAlwaysYieldsSettings(body: JValue)
    requires body.JDict? && DialoutSection(body).JDict?
    requires Truthy(PhoneOf(DialoutSection(body)))
    ensures ExtractDialout(body).Some?
    ensures var d := DialoutSection(body);
            !HasKey(NonNull(d.entries), "phoneNumber")
            ==> Lookup(ExtractDialout(body).value, "phoneNumber") == JStr(Str(PhoneOf(d)))
  {
    var d := DialoutSection(body);
    assert HasKey(DialoutEntries(d), "phoneNumber");
    CanonicalValues(d);
  }

  /** A canonical key missing from the dict but found under another
      spelling reads, in the result, as the text of the value found. */
  lemma CanonicalValues(d: JValue)
    requires d.JDict?
    ensures Truthy(PhoneOf(d)) && !HasKey(NonNull(d.entries), "phoneNumber")
            ==> Lookup(DialoutEntries(d), "phoneNumber") == JStr(Str(PhoneOf(d)))
    ensures Truthy(CallerIdOf(d)) && !HasKey(NonNull(d.entries), "callerId")
            ==> Lookup(DialoutEntries(d), "callerId") == JStr(Str(CallerIdOf(d)))
    ensures Truthy(DisplayNameOf(d)) && !HasKey(NonNull(d.entries), "displayName")
            ==> Lookup(DialoutEntries(d), "displayName") == JStr(Str(DisplayNameOf(d)))
  {
    if Truthy(PhoneOf(d)) && !HasKey(NonNull(d.entries), "phoneNumber") {
      PhoneValue(d);
    }
    if Truthy(CallerIdOf(d)) && !HasKey(NonNull(d.entries), "callerId") {
      CallerIdValue(d);
    }
    if Truthy(DisplayNameOf(d)) && !HasKey(NonNull(d.entries), "displayName") {
      DisplayNameValue(d);
    }
  }

  lemma PhoneValue(d: JValue)
    requires d.JDict? && Truthy(PhoneOf(d)) && !HasKey(NonNull(d.entries), "phoneNumber")
    ensures Lookup(DialoutEntries(d), "phoneNumber") == JStr(Str(PhoneOf(d)))
  {
    var s0 := NonNull(d.entries);
    var s1 := SetDefault(s0, "phoneNumber", PhoneOf(d));
    var s2 := SetDefault(s1, "callerId", CallerIdOf(d));
    var s3 := SetDefault(s2, "displayName", DisplayNameOf(d));
    PrefixLookup(s0, s1, s3, "phoneNumber", JStr(Str(PhoneOf(d))));
  }

  lemma CallerIdValue(d: JValue)
    requires d.JDict? && Truthy(CallerIdOf(d)) && !HasKey(NonNull(d.entries), "callerId")
    ensures Lookup(DialoutEntries(d), "callerId") == JStr(Str(CallerIdOf(d)))
  {
    var s0 := NonNull(d.entries);
    var s1 := SetDefault(s0, "phoneNumber", PhoneOf(d));
    var s2 := SetDefault(s1, "callerId", CallerIdOf(d));
    var s3 := SetDefault(s2, "displayName", DisplayNameOf(d));
    AppendKeepsKeys(s0, s1, "callerId");
    PrefixLookup(s1, s2, s3, "callerId", JStr(Str(CallerIdOf(d))));
  }

  lemma DisplayNameValue(d: JValue)
    requires d.JDict? && Truthy(DisplayNameOf(d)) && !HasKey(NonNull(d.entries), "displayName")
    ensures Lookup(DialoutEntries(d), "displayName") == JStr(Str(DisplayNameOf(d)))
  {
    var s0 := NonNull(d.entries);
    var s1 := SetDefault(s0, "phoneNumber", PhoneOf(d));
    var s2 := SetDefault(s1, "callerId", CallerIdOf(d));
    var s3 := SetDefault(s2, "displayName", DisplayNameOf(d));
    AppendKeepsKeys(s0, s1, "displayName");
    AppendKeepsKeys(s1, s2, "displayName");
    PrefixLookup(s2, s3, s3, "displayName", JStr(Str(DisplayNameOf(d))));
  }

  /** Once `(k, v)` follows a prefix without `k`, extending the sequence
      does not change the lookup of `k`. */
  lemma PrefixLookup(s0: seq<(string, JValue)>, s2: seq<(string, JValue)>, s3: seq<(string, JValue)>,
                     k: string, v: JValue)
    requires !HasKey(s0, k)
    requires |s0| < |s2| <= |s3| && s2[..|s0|] == s0 && s2[|s0|] == (k, v) && s3[..|s2|] == s2
    ensures Lookup(s3, k) == v
  {
    var rest := s3[|s0|..];
    assert s3[..|s0|] == s0;
    assert s0 + rest == s3;
    assert rest[0] == s3[|s0|] == s2[|s0|];
    LookupSkipsPrefix(s0, rest, k);
  }

  /** A lookup skips a prefix that does not hold the key. */
  lemma {:induction false} LookupSkipsPrefix(s: seq<(string, JValue)>, t: seq<(string, JValue)>, k: string)
    requires !HasKey(s, k)
    ensures Lookup(s + t, k) == Lookup(t, k)
  {
    if |s| > 0 {
      assert s[0].0 != k;
      assert (s + t)[1..] == s[1..] + t;
      forall i | 0 <= i < |s[1..]|
        ensures s[1..][i].0 != k
      {
        assert s[1..][i] == s[i + 1];
      }
      LookupSkipsPrefix(s[1..], t, k);
    } else {
      assert s + t == t;
    }
  }

  /** `_extract_session_mode`: the first truthy of `mode`, `session_mode`
      and `sessionMode`, stripped and lower-cased; `""` for a non-dict. */
  function ExtractSessionMode(body: JValue): (r: string)
    ensures !body.JDict? ==> r == ""
    ensures Strip(r) == r && Lower(r) == r
    // The first spelling holding a truthy value decides; when none does the
    // mode is empty.
    ensures forall i :: body.JDict? && FirstTruthyAt(ModeCandidates(body), i)
                        ==> r == Normalize(Str(ModeCandidates(body)[i]))
    ensures !AnyTruthy(ModeCandidates(body)) ==> r == ""
  {
    if !body.JDict? then ""
    else
      var v := OrChain(ModeCandidates(body));
      OrChainFirstTruthy(ModeCandidates(body));
      NormalizeIdempotent(TextOf(v));
      NormalText(v)
  }

  /** Where the session mode is looked for, in order. */
  function ModeCandidates(body: JValue): seq<JValue>
  {
    [Get(body, "mode"), Get(body, "session_mode"), Get(body, "sessionMode")]
  }

  /** Surrounding whitespace and case do not matter, and an empty `mode`
      falls through to the next spelling. */
  lemma SessionModeFallsThrough()
    ensures ExtractSessionMode(JDict([("mode", JStr("")), ("sessionMode", JStr(" Dial\n"))])) == "dial"
  {
    var body := JDict([("mode", JStr("")), ("sessionMode", JStr(" Dial\n"))]);
    LookupFirst(body.entries, "mode", 0);
    LookupAbsent(body.entries, "session_mode");
    LookupFirst(body.entries, "sessionMode", 1);
    var vs := [JStr(""), JNull, JStr(" Dial\n")];
    OrChainFirstTruthy(vs);
    assert FirstTruthyAt(vs, 2);
    NormalizeDialExample();
  }

  lemma NormalizeDialExample()
    ensures Normalize(" Dial\n") == "dial"
  {
    StripDialExample();
    LowerDialExample();
  }

  lemma LowerDialExample()
    ensures Lower("Dial") == "dial"
  {
    var l := Lower("Dial");
    assert l[0] == LowerChar('D') == 'd';
    assert l[1] == 'i' && l[2] == 'a' && l[3] == 'l';
  }

  lemma StripDialExample()
    ensures Strip(" Dial\n") == "Dial"
  {
    LStripDialExample();
    RStripDialExample();
  }

  lemma LStripDialExample()
    ensures LStrip(" Dial\n") == "Dial\n"
  {
    assert " Dial\n"[1..] == "Dial\n";
    assert IsSpace(' ') && !IsSpace('D');
  }

  lemma RStripDialExample()
    ensures RStrip("Dial\n") == "Dial"
  {
    assert "Dial\n"[..4] == "Dial";
    assert IsSpace('\n') && !IsSpace('l');
  }
}

=== FILE: resilient_connect.dfy ===
/** `ResilientCartesiaTTSService`: the speech-synthesis websocket is
    (re)connected one caller at a time with capped exponential backoff plus
    jitter, for a bounded number of attempts, and the call returns only once
    the socket has been seen open. */
module ResilientConnect {
  import opened PyText

  /** The constructor's defaults. */
  const DefaultInitial: real := 0.5
  const DefaultMax: real := 8.0
  const DefaultAttempts: int := 6

  /** Floor applied to the first delay, in seconds. */
  const MinInitial: real := 0.1

  /** The backoff settings after clamping. */
  datatype Backoff = Backoff(initial: real, max: real, maxAttempts: nat)

  /** What the constructor guarantees about its settings. */
  predicate Clamped(b: Backoff)
  {
    b.initial >= MinInitial && b.max >= b.initial && b.maxAttempts >= 1
  }

  function MaxReal(a: real, b: real): real { if a >= b then a else b }
  function MinReal(a: real, b: real): real { if a <= b then a else b }

  /** `__init__`: `initial := max(0.1, initial)`, `max := max(initial, max)`,
      `attempts := max(1, attempts)`. */
  function Clamp(initial: real, maxDelay: real, attempts: int): (b: Backoff)
    ensures Clamped(b)
    // In-range settings are kept as given ...
    ensures initial >= MinInitial ==> b.initial == initial
    ensures maxDelay >= b.initial ==> b.max == maxDelay
    ensures attempts >= 1 ==> b.maxAttempts == attempts
    // ... and out-of-range ones are raised to their floor.
    ensures initial < MinInitial ==> b.initial == MinInitial
    ensures maxDelay < b.initial ==> b.max == b.initial
    ensures attempts < 1 ==> b.maxAttempts == 1
  {
    var i := MaxReal(MinInitial, initial);
    Backoff(i, MaxReal(i, maxDelay), if attempts >= 1 then attempts else 1)
  }

  function Pow2(n: nat): (r: nat)
    ensures r >= 1
  {
    if n == 0 then 1 else 2 * Pow2(n - 1)
  }

  /** The base delay slept after failed attempt number `k + 1`:
      `min(initial * 2^k, max)`. */
  function BaseDelay(b: Backoff, k: nat): real
  {
    MinReal(b.initial * (Pow2(k) as real), b.max)
  }

  /** Doubling and re-capping the previous delay gives the next one, which
      is how the loop computes it. */
  lemma DoublingStep(b: Backoff, k: nat)
    requires Clamped(b)
    ensures MinReal(BaseDelay(b, k) * 2.0, b.max) == BaseDelay(b, k + 1)
  {
    assert b.initial * (Pow2(k + 1) as real) == (b.initial * (Pow2(k) as real)) * 2.0;
  }

  /** The delays never shrink and never exceed the cap. */
  lemma {:induction false} DelaysGrowToCap(b: Backoff, k: nat)
    requires Clamped(b)
    ensures b.initial <= BaseDelay(b, k) <= BaseDelay(b, k + 1) <= b.max
  {
    if k > 0 {
      DelaysGrowToCap(b, k - 1);
    }
    DoublingStep(b, k);
  }

  /** With the defaults, from 0.5 s capped at 8 s the base delays are
      0.5, 1, 2, 4, 8, 8. */
  lemma DefaultDelays()
    ensures var b := Clamp(DefaultInitial, DefaultMax, DefaultAttempts);
            b.maxAttempts == 6
            && BaseDelay(b, 0) == 0.5 && BaseDelay(b, 1) == 1.0 && BaseDelay(b, 2) == 2.0
            && BaseDelay(b, 3) == 4.0 && BaseDelay(b, 4) == 8.0 && BaseDelay(b, 5) == 8.0
  {
    assert Pow2(4) == 16 && Pow2(5) == 32;
  }

  /** What one attempt inside the lock observes. */
  datatype Attempt =
    | AlreadyOpen                  // the re-check finds the socket open (another caller won)
    | ConnectRaised(error: string) // the inherited connect call raised
    | ConnectReturned(open: bool)  // it returned; `open` is the state seen afterwards

  /** The attempt ends the loop. */
  predicate Succeeds(a: Attempt)
  {
    a.AlreadyOpen? || (a.ConnectReturned? && a.open)
  }

  const NotOpenMessage := "Cartesia websocket still not open after connect() call"
  const DefaultMessage := "failed to establish Cartesia websocket connection"

  /** `last_error` after a failed attempt. */
  function ErrorOf(a: Attempt): string
  {
    if a.ConnectRaised? then a.error else NotOpenMessage
  }

  /** `last_error or "failed to establish ..."`: an empty message counts as
      no message. */
  function Reported(lastError: string): (m: string)
    ensures m != ""
    ensures lastError != "" ==> m == lastError
    ensures lastError == "" ==> m == DefaultMessage
  {
    if lastError == "" then DefaultMessage else lastError
  }

  /** The text of the `RuntimeError` raised when every attempt failed. */
  function FailureMessage(b: Backoff, lastError: string): string
  {
    "Cartesia TTS connection failed after " + IntToString(b.maxAttempts) + " attempts: "
    + Reported(lastError)
  }

  /** Return (with the attempts used and the sleeps taken) or raise. */
  datatype ConnectResult =
    | Connected(attempts: nat, sleeps: seq<real>)
    | Failed(attempts: nat, sleeps: seq<real>, message: string)

  /** The jittered sleep after a failed attempt: `delay + uniform(0, delay * 0.5)`
      with `u` the underlying draw from `[0, 1]`. */
  function Jittered(delay: real, u: real): real
  {
    delay + delay * 0.5 * u
  }

  /** The jitter adds between nothing and half the delay. */
  lemma JitterBounds(delay: real, u: real)
    requires delay >= 0.0 && 0.0 <= u <= 1.0
    ensures delay <= Jittered(delay, u) <= 1.5 * delay
  {
    assert delay * 0.5 * u <= delay * 0.5;
  }

  /** `_connect_websocket`. `initiallyOpen` is the lock-free fast-path
      check, `outcome(k)` what attempt `k` (counting from 0) observes, and
      `draw(k)` the random draw behind the jitter after attempt `k`. */
  method ConnectWebsocket(b: Backoff, initiallyOpen: bool, outcome: nat -> Attempt, draw: nat -> real)
    returns (r: ConnectResult)
    requires Clamped(b)
    requires forall k :: 0.0 <= draw(k) <= 1.0
    // The fast path takes no attempt, and only the fast path returns
    // without one.
    ensures initiallyOpen ==> r == Connected(0, [])
    ensures r.Connected? ==> initiallyOpen || (r.attempts > 0 && Succeeds(outcome(r.attempts - 1)))
    // Attempts are bounded, and the connect call is made at most that often.
    ensures r.attempts <= b.maxAttempts
    // Success means the socket was seen open on the last attempt, after
    // every earlier attempt failed.
    ensures r.Connected? && r.attempts > 0 ==> Succeeds(outcome(r.attempts - 1))
    ensures forall k :: 0 <= k < r.attempts - 1 ==> !Succeeds(outcome(k))
    // Failure exactly when no attempt succeeds; it uses every attempt and
    // reports the last error.
    ensures r.Failed? <==> !initiallyOpen && forall k :: 0 <= k < b.maxAttempts ==> !Succeeds(outcome(k))
    ensures r.Failed? ==> r.attempts == b.maxAttempts
                          && r.message == FailureMessage(b, ErrorOf(outcome(b.maxAttempts - 1)))
    // One sleep after every failed attempt, including the last one.
    ensures |r.sleeps| == if r.Failed? then r.attempts else if r.attempts == 0 then 0 else r.attempts - 1
    ensures forall k :: 0 <= k < |r.sleeps| ==>
              r.sleeps[k] == Jittered(BaseDelay(b, k), draw(k))
              && BaseDelay(b, k) <= r.sleeps[k] <= 1.5 * BaseDelay(b, k)
  {
    if initiallyOpen {
      return Connected(0, []);
    }
    var attempt: nat := 0;
    var delay := b.initial;
    var lastError := "";
    var sleeps: seq<real> := [];
    assert BaseDelay(b, 0) == b.initial;
    while attempt < b.maxAttempts
      invariant attempt <= b.maxAttempts
      invariant |sleeps| == attempt
      invariant delay == BaseDelay(b, attempt)
      invariant forall k :: 0 <= k < attempt ==> !Succeeds(outcome(k))
      invariant attempt > 0 ==> lastError == ErrorOf(outcome(attempt - 1))
      invariant forall k :: 0 <= k < attempt ==>
                  sleeps[k] == Jittered(BaseDelay(b, k), draw(k))
                  && BaseDelay(b, k) <= sleeps[k] <= 1.5 * BaseDelay(b, k)
      decreases b.maxAttempts - attempt
    {
      var o := outcome(attempt);
      if Succeeds(o) {
        return Connected(attempt + 1, sleeps);
      }
      lastError := ErrorOf(o);
      DelaysGrowToCap(b, attempt);
      var pause := Jittered(delay, draw(attempt));
      JitterBounds(delay, draw(attempt));
      sleeps := sleeps + [pause];
      DoublingStep(b, attempt);
      delay := MinReal(delay * 2.0, b.max);
      attempt := attempt + 1;
    }
    return Failed(attempt, sleeps, FailureMessage(b, lastError));
  }
}

=== FILE: sentence_flush.dfy ===
/** The Akool avatar's text flush buffer: streamed language-model tokens are
    collected in a pending string and handed to the avatar in chunks that end
    at a sentence boundary, or in 400-character pieces when no boundary shows
    up, with whatever is left flushed at the end of the response. */
module SentenceFlush {
  import opened Prelude
  import opened PyText

  /** A boundary-free buffer longer than this is split at this length. */
  const ForceSplitLength: nat := 400

  /** The characters the splitter treats as the end of a sentence. */
  predicate IsBoundary(c: char)
  {
    c == '.' || c == '!' || c == '?' || c == '\n'
  }

  predicate HasBoundary(s: string)
  {
    exists i :: 0 <= i < |s| && IsBoundary(s[i])
  }

  /** `max(s.rfind("."), s.rfind("!"), s.rfind("?"), s.rfind("\n"))`: the
      index of the last boundary character, or -1 when there is none. */
  function LastBoundary(s: string): (r: int)
    ensures -1 <= r < |s|
    ensures r >= 0 ==> IsBoundary(s[r])
    ensures forall i :: r < i < |s| ==> !IsBoundary(s[i])
  {
    if |s| == 0 then -1
    else if IsBoundary(s[|s| - 1]) then |s| - 1
    else LastBoundary(s[..|s| - 1])
  }

  /** A split of the buffer: the part to send now and the part to keep. */
  datatype Split = Split(flush: string, rest: string)

  /** `_split_flushable(s)`. */
  function SplitFlushable(s: string): (r: Split)
    ensures r.flush + r.rest == s
    ensures !HasBoundary(r.rest)
    ensures HasBoundary(s) ==> |r.flush| > 0 && IsBoundary(r.flush[|r.flush| - 1])
    ensures HasBoundary(s) ==> |r.flush| == LastBoundary(s) + 1
    ensures !HasBoundary(s) && |s| > ForceSplitLength ==> r.flush == s[..ForceSplitLength]
    ensures !HasBoundary(s) && |s| <= ForceSplitLength ==> r.flush == ""
  {
    var last := LastBoundary(s);
    if last < 0 then
      assert !HasBoundary(s);
      if |s| > ForceSplitLength then
        assert s[..ForceSplitLength] + s[ForceSplitLength..] == s;
        Split(s[..ForceSplitLength], s[ForceSplitLength..])
      else Split("", s)
    else
      assert s[..last + 1] + s[last + 1..] == s;
      Split(s[..last + 1], s[last + 1..])
  }

  /** What one `LLMTextFrame` does to the buffer: the new pending text, the
      flushable prefix that was cut off, and the text handed to the avatar
      (only when the prefix is not blank). */
  datatype TokenStep = TokenStep(pending: string, flushed: string, send: Option<string>)

  /** Append a token to the pending text and cut off the flushable prefix. */
  function OnToken(pending: string, token: string): (r: TokenStep)
    ensures r.flushed + r.pending == pending + token
    ensures !HasBoundary(r.pending)
    // The cut falls just after the last sentence boundary; without one, a
    // long buffer is cut at 400 characters and a short one is kept whole.
    ensures HasBoundary(pending + token) ==>
              |r.flushed| == LastBoundary(pending + token) + 1 && IsBoundary(r.flushed[|r.flushed| - 1])
    ensures !HasBoundary(pending + token) && |pending + token| > ForceSplitLength ==>
              r.flushed == (pending + token)[..ForceSplitLength]
    ensures !HasBoundary(pending + token) && |pending + token| <= ForceSplitLength ==> r.flushed == ""
    ensures r.send.Some? <==> !IsBlank(r.flushed)
    ensures r.send.Some? ==> r.send.value == r.flushed
  {
    var split := SplitFlushable(pending + token);
    TokenStep(split.rest, split.flush, if Strip(split.flush) != "" then Some(split.flush) else None)
  }

  /** What `LLMFullResponseEndFrame` does: the remainder is handed over when
      it is not blank, and the buffer is emptied either way. */
  datatype EndStep = EndStep(pending: string, send: Option<string>)

  function OnResponseEnd(pending: string): (r: EndStep)
    ensures r.pending == ""
    ensures r.send.Some? <==> !IsBlank(pending)
    ensures r.send.Some? ==> r.send.value == pending
  {
    EndStep("", if Strip(pending) != "" then Some(pending) else None)
  }

  /** Feed a whole token stream: the final pending text and every prefix
      cut off on the way, blank or not, in order. */
  function Feed(pending: string, tokens: seq<string>): (string, seq<string>)
  {
    if |tokens| == 0 then (pending, [])
    else
      var prev := Feed(pending, tokens[..|tokens| - 1]);
      var step := OnToken(prev.0, tokens[|tokens| - 1]);
      (step.pending, prev.1 + [step.flushed])
  }

  /** No text is lost or reordered: the cut-off prefixes followed by what is
      still pending spell out the old pending text followed by every token. */
  lemma {:induction false} FeedKeepsText(pending: string, tokens: seq<string>)
    ensures Concat(Feed(pending, tokens).1) + Feed(pending, tokens).0 == pending + Concat(tokens)
  {
    if |tokens| > 0 {
      var init := tokens[..|tokens| - 1];
      var last := tokens[|tokens| - 1];
      var prev := Feed(pending, init);
      var step := OnToken(prev.0, last);
      FeedKeepsText(pending, init);
      ConcatSnoc(prev.1, step.flushed);
      InitLast(tokens);
      ConcatSnoc(init, last);
      var a, b := Concat(prev.1), Concat(init);
      assert a + prev.0 == pending + b;
      assert step.flushed + step.pending == prev.0 + last;
      AppendAssoc(a, step.flushed, step.pending);
      AppendAssoc(a, prev.0, last);
      AppendAssoc(pending, b, last);
    }
  }

  lemma AppendAssoc(x: string, y: string, z: string)
    ensures (x + y) + z == x + (y + z)
  {
  }

  /** The pending text never holds a sentence boundary once a token has
      been processed: every boundary has already been flushed. */
  lemma FeedPendingHasNoBoundary(pending: string, tokens: seq<string>)
    requires |tokens| > 0
    ensures !HasBoundary(Feed(pending, tokens).0)
  {
  }

  /** A worked trace: "Hello", " world.", " How are you"
      flushes "Hello world." on the second token and holds " How are you"
      until the end of the response, which hands it over. */
  lemma HelloWorldExample()
    ensures var s1 := OnToken("", "Hello");
            var s2 := OnToken(s1.pending, " world.");
            var s3 := OnToken(s2.pending, " How are you");
            var e := OnResponseEnd(s3.pending);
            s1.send == None && s2.send == Some("Hello world.") && s3.send == None
            && e.send == Some(" How are you") && e.pending == ""
  {
    ExampleFirstToken();
    ExampleSecondToken();
    ExampleThirdToken();
    ExampleEnd();
  }

  lemma ExampleFirstToken()
    ensures OnToken("", "Hello") == TokenStep("Hello", "", None)
  {
    assert "" + "Hello" == "Hello";
    assert !HasBoundary("Hello");
  }

  lemma ExampleSecondToken()
    ensures OnToken("Hello", " world.") == TokenStep("", "Hello world.", Some("Hello world."))
  {
    assert "Hello" + " world." == "Hello world.";
    assert LastBoundary("Hello world.") == 11;
    assert !IsSpace("Hello world."[0]);
  }

  lemma ExampleThirdToken()
    ensures OnToken("", " How are you") == TokenStep(" How are you", "", None)
  {
    assert "" + " How are you" == " How are you";
    assert !HasBoundary(" How are you");
  }

  lemma ExampleEnd()
    ensures OnResponseEnd(" How are you") == EndStep("", Some(" How are you"))
  {
    assert !IsSpace(" How are you"[1]);
  }
}

=== FILE: vision_context.dfy ===
/** Attaching the participant's latest camera frame to the user's language
    model turn: when to try it (the attach mode and, in `auto`, a keyword
    test), when the stored snapshot is fresh enough, what the image message
    looks like, how the completion request is routed to the vision model
    because of it, and how such a message is flattened for the transcript
    log without its image payload. */
module VisionContext {
  import opened Prelude
  import opened PyText
  import opened PyJson

  /** `AKOOL_VISION_LLM_ATTACH_MODE`. */
  datatype AttachMode = Never | Always | Auto

  function ModeName(m: AttachMode): string
  {
    match m
    case Never => "never"
    case Always => "always"
    case Auto => "auto"
  }

  /** The setting is stripped and lower-cased; anything unrecognised,
      including an empty value, means `always`. */
  function ParseAttachMode(raw: string): (m: AttachMode)
    ensures m == Never <==> Normalize(raw) == "never"
    ensures m == Auto <==> Normalize(raw) == "auto"
  {
    var s := Normalize(raw);
    if s == "never" then Never else if s == "auto" then Auto else Always
  }

  /** Every mode survives being written out and read back. */
  lemma ParseModeName(m: AttachMode)
    ensures ParseAttachMode(ModeName(m)) == m
  {
    var s := ModeName(m);
    StripUnpadded(s);
    assert Lower(s) == s;
  }

  /** The words whose presence in `auto` mode suggests the user is asking
      about what the camera sees. */
  const Keywords: seq<string> := [
    "see", "look", "show", "camera", "image", "photo", "picture", "screen", "read",
    "what is this", "what's this", "who is", "what am i", "wearing", "holding",
    "color", "colour", "shirt", "hat", "glasses", "sign", "logo", "text"]

  /** `_should_attach_vision_to_text`. */
  function ShouldAttach(mode: AttachMode, text: string): (r: bool)
    ensures mode == Never ==> !r
    ensures mode == Always ==> r
    ensures mode == Auto ==> (r <==> exists i :: 0 <= i < |Keywords| && Contains(Normalize(text), Keywords[i]))
  {
    match mode
    case Never => false
    case Always => true
    case Auto =>
      var t := Normalize(text);
      if t == "" then
        assert forall i :: 0 <= i < |Keywords| ==> !Contains(t, Keywords[i]);
        false
      else Any(k => Contains(t, k), Keywords)
  }

  /** In `auto` mode a text shorter than every keyword never attaches. */
  lemma ShortTextNeverAttaches(text: string)
    requires |Normalize(text)| < 3
    ensures !ShouldAttach(Auto, text)
  {
    var t := Normalize(text);
    KeywordsAreLong();
    forall i | 0 <= i < |Keywords|
      ensures !Contains(t, Keywords[i])
    {
      ContainsNeedsRoom(t, Keywords[i]);
    }
  }

  /** No keyword is shorter than three characters. */
  lemma KeywordsAreLong()
    ensures forall i :: 0 <= i < |Keywords| ==> |Keywords[i]| >= 3
  {
  }

  /** A string never contains a longer one. */
  lemma ContainsNeedsRoom(t: string, k: string)
    requires |t| < |k|
    ensures !Contains(t, k)
  {
  }

  /** In `auto` mode the keyword test ignores case and surrounding spaces. */
  lemma KeywordAttaches()
    ensures ShouldAttach(Auto, " See")
  {
    NormalizeSee();
    FirstKeyword();
    assert OccursAt(Normalize(" See"), "see", 0);
    KeywordContained(" See", 0);
  }

  lemma FirstKeyword()
    ensures Keywords[0] == "see"
  {
  }

  /** Containing any one keyword is enough in `auto` mode. */
  lemma KeywordContained(text: string, i: nat)
    requires i < |Keywords| && Contains(Normalize(text), Keywords[i])
    ensures ShouldAttach(Auto, text)
  {
  }

  lemma NormalizeSee()
    ensures Normalize(" See") == "see"
  {
    assert " See"[1..] == "See";
    assert IsSpace(' ') && !IsSpace('S') && !IsSpace('e');
    assert LStrip("See") == "See";
    assert LStrip(" See") == "See";
    assert RStrip("See") == "See";
    assert Lower("See")[0] == LowerChar('S') == 's';
  }

  /** `min(60.0, max(0.0, AKOOL_VISION_LLM_MAX_AGE_S))`. */
  function ClampMaxAge(requested: real): (r: real)
    ensures 0.0 <= r <= 60.0
    ensures 0.0 <= requested <= 60.0 ==> r == requested
    ensures requested < 0.0 ==> r == 0.0
    ensures requested > 60.0 ==> r == 60.0
  {
    if requested > 60.0 then 60.0 else if requested < 0.0 then 0.0 else requested
  }

  /** The stored camera snapshot: the raw image and when it was stored
      (0.0 when never). */
  datatype Snapshot = Snapshot(image: seq<byte>, ts: real)

  /** A snapshot of age `now - ts` may be used: any age when the limit is
      not positive. */
  predicate Fresh(maxAge: real, ts: real, now: real)
  {
    maxAge <= 0.0 || now - ts <= maxAge
  }

  const DataUrlPrefix := "data:image/jpeg;base64,"

  /** `{"role": role, "content": text}`. */
  function TextMessage(role: string, text: string): JValue
  {
    JDict([("role", JStr(role)), ("content", JStr(text))])
  }

  /** The two content parts of an image turn. */
  function VisionParts(text: string, b64: string): seq<JValue>
  {
    [JDict([("type", JStr("text")), ("text", JStr(text))]),
     JDict([("type", JStr("image_url")), ("image_url", JDict([("url", JStr(DataUrlPrefix + b64))]))])]
  }

  /** `{"role": "user", "content": [text part, image_url part]}`. */
  function VisionMessage(text: string, b64: string): JValue
  {
    JDict([("role", JStr("user")), ("content", JList(VisionParts(text, b64)))])
  }

  /** `_handle_aggregation_with_vision`: the messages appended to the
      context for one user turn. `encoded` is the base64 JPEG of the
      snapshot, `None` when encoding raised. */
  function HandleAggregation(mode: AttachMode, maxAge: real, role: string, aggregation: string,
                             snap: Snapshot, now: real, encoded: Option<string>): (r: seq<JValue>)
    // A blank turn appends nothing; any other turn exactly one message.
    ensures IsBlank(aggregation) <==> r == []
    ensures |r| <= 1
    // The image goes along exactly when it is wanted, present, fresh and encodable.
    ensures |r| == 1 ==>
              var t := Strip(aggregation);
              if ShouldAttach(mode, t) && |snap.image| > 0 && Fresh(maxAge, snap.ts, now) && encoded.Some?
              then r[0] == VisionMessage(t, encoded.value)
              else r[0] == TextMessage(role, t)
  {
    var text := Strip(aggregation);
    if text == "" then []
    else if !ShouldAttach(mode, text) then [TextMessage(role, text)]
    else if |snap.image| > 0 && Fresh(maxAge, snap.ts, now) && encoded.Some? then
      [VisionMessage(text, encoded.value)]
    else [TextMessage(role, text)]
  }

  /** With `never`, a non-blank turn is always one plain text message. */
  lemma NeverIsTextOnly(maxAge: real, role: string, aggregation: string, snap: Snapshot,
                        now: real, encoded: Option<string>)
    requires !IsBlank(aggregation)
    ensures HandleAggregation(Never, maxAge, role, aggregation, snap, now, encoded)
            == [TextMessage(role, Strip(aggregation))]
  {
  }

  /** A content part of type `image_url` (type compared stripped and
      lower-cased). */
  predicate IsImageItem(item: JValue)
  {
    item.JDict? && NormalText(Get(item, "type")) == "image_url"
  }

  /** A message dict whose list content holds an image part. */
  predicate HasImage(msg: JValue)
  {
    var content := Get(msg, "content");
    msg.JDict? && content.JList? && exists j :: 0 <= j < |content.items| && IsImageItem(content.items[j])
  }

  /** The loop over the messages, each with its inner loop over the
      content parts, stopping at the first image part. */
  function AnyImageMessage(msgs: seq<JValue>): (r: bool)
    ensures r <==> exists i :: 0 <= i < |msgs| && HasImage(msgs[i])
  {
    Any(HasImageScan, msgs)
  }

  /** One message as the loops test it: skip anything that is not a dict
      with list content, then scan the parts. */
  predicate HasImageScan(msg: JValue)
    ensures HasImageScan(msg) <==> HasImage(msg)
  {
    var content := Get(msg, "content");
    msg.JDict? && content.JList? && Any(IsImageItem, content.items)
  }

  /** The `messages` list of the completion parameters, or nothing. */
  function MessagesOf(params: JValue): seq<JValue>
  {
    var msgs := Get(params, "messages");
    if msgs.JList? then msgs.items else []
  }

  /** `build_chat_completion_params`: the model to call. */
  function SelectModel(params: JValue, textModel: string, visionModel: string): (model: string)
    ensures model == if exists i :: 0 <= i < |MessagesOf(params)| && HasImage(MessagesOf(params)[i])
                     then visionModel else textModel
  {
    if AnyImageMessage(MessagesOf(params)) then visionModel else textModel
  }

  /** An image turn is always recognised as one. */
  lemma VisionMessageHasImage(text: string, b64: string)
    ensures HasImage(VisionMessage(text, b64))
  {
    var msg := VisionMessage(text, b64);
    LookupFirst(msg.entries, "content", 1);
    var item := VisionParts(text, b64)[1];
    LookupFirst(item.entries, "type", 0);
    ImageTypeNormal();
    assert IsImageItem(item);
    assert Get(msg, "content").items[1] == item;
  }

  lemma ImageTypeNormal()
    ensures NormalText(JStr("image_url")) == "image_url"
  {
    var s := "image_url";
    assert TextOf(JStr(s)) == s;
    assert !IsSpace(s[0]) && !IsSpace(s[|s| - 1]);
    StripUnpadded(s);
    LowerImageUrl();
  }

  lemma LowerImageUrl()
    ensures Lower("image_url") == "image_url"
  {
    var s := "image_url";
    var l := Lower(s);
    forall i | 0 <= i < |s|
      ensures l[i] == s[i]
    {
      assert !('A' <= s[i] <= 'Z');
    }
  }

  /** A plain text turn never is. */
  lemma TextMessageHasNoImage(role: string, text: string)
    ensures !HasImage(TextMessage(role, text))
  {
    var msg := TextMessage(role, text);
    LookupFirst(msg.entries, "content", 1);
  }

  /** Once an image turn is in the context, the request goes to the
      vision model. */
  lemma ImageTurnRoutesToVision(ctx: seq<JValue>, text: string, b64: string, textModel: string, visionModel: string)
    ensures SelectModel(JDict([("messages", JList(ctx + [VisionMessage(text, b64)]))]), textModel, visionModel)
            == visionModel
  {
    var all := ctx + [VisionMessage(text, b64)];
    LookupFirst(JDict([("messages", JList(all))]).entries, "messages", 0);
    VisionMessageHasImage(text, b64);
    assert HasImage(all[|ctx|]);
  }

  /** The plain text turns for `(role, text)` pairs. */
  function TextTurns(turns: seq<(string, string)>): (r: seq<JValue>)
    ensures |r| == |turns|
  {
    seq(|turns|, i requires 0 <= i < |turns| => TextMessage(turns[i].0, turns[i].1))
  }

  /** A context of plain text turns is sent to the text model. */
  lemma TextTurnsRouteToText(turns: seq<(string, string)>, textModel: string, visionModel: string)
    ensures SelectModel(JDict([("messages", JList(TextTurns(turns)))]), textModel, visionModel) == textModel
  {
    var ctx := TextTurns(turns);
    LookupFirst(JDict([("messages", JList(ctx))]).entries, "messages", 0);
    forall i | 0 <= i < |ctx|
      ensures !HasImage(ctx[i])
    {
      TextMessageHasNoImage(turns[i].0, turns[i].1);
    }
  }

  /** One content part as it appears in the log, if at all: stripped text,
      `[image]` for an image, `[type]` for any other typed part. */
  function LogPart(item: JValue): (r: Option<string>)
    ensures r.Some? ==> r.value != ""
    // Anything but a dict, and a dict without a type, is skipped.
    ensures !item.JDict? || IsBlank(TextOf(Get(item, "type"))) ==> r.None?
    // A text part is logged as its stripped text, and skipped when blank.
    ensures item.JDict? && NormalText(Get(item, "type")) == "text" ==>
              var t := TextOf(Get(item, "text"));
              r == if IsBlank(t) then None else Some(Strip(t))
    // An image part is logged as a marker, never as its payload.
    ensures item.JDict? && NormalText(Get(item, "type")) == "image_url" ==> r == Some("[image]")
    // Any other typed part is logged as its normalized type in brackets.
    ensures item.JDict? && NormalText(Get(item, "type")) !in {"", "text", "image_url"} ==>
              r == Some("[" + NormalText(Get(item, "type")) + "]")
  {
    if !item.JDict? then None
    else
      var typ := NormalText(Get(item, "type"));
      if typ == "text" then
        var t := Strip(TextOf(Get(item, "text")));
        if t != "" then Some(t) else None
      else if typ == "image_url" then Some("[image]")
      else if typ != "" then Some("[" + typ + "]")
      else None
  }

  /** `_content_for_log`: a string is logged as it is; a part list as its
      log parts joined by newlines and stripped; anything else as
      `str(content or "")`. */
  function ContentForLog(content: JValue): (r: string)
    ensures content.JStr? ==> r == content.s
    ensures content.JList? ==> Strip(r) == r
    // A part list is logged as its log parts, one per line.
    ensures content.JList? ==> r == Strip(Join("\n", FilterMap(LogPart, content.items)))
    ensures !content.JStr? && !content.JList? ==> r == TextOf(content)
  {
    match content
    case JStr(s) => s
    case JList(items) =>
      var joined := Join("\n", FilterMap(LogPart, items));
      StripIdempotent(joined);
      Strip(joined)
    case _ => TextOf(content)
  }

  /** An image turn is logged as its text and an `[image]` marker: the
      base64 payload never reaches the log. */
  lemma VisionMessageLog(text: string, b64: string)
    requires |text| > 0 && !IsSpace(text[0]) && !IsSpace(text[|text| - 1])
    ensures ContentForLog(Get(VisionMessage(text, b64), "content")) == text + "\n[image]"
  {
    var msg := VisionMessage(text, b64);
    var parts := VisionParts(text, b64);
    LookupFirst(msg.entries, "content", 1);
    assert Get(msg, "content") == JList(parts);
    StripUnpadded(text);
    VisionLogParts(text, b64);
    JoinedLog(text);
  }

  lemma JoinedLog(text: string)
    requires |text| > 0 && !IsSpace(text[0]) && !IsSpace(text[|text| - 1])
    ensures Strip(Join("\n", [text, "[image]"])) == text + "\n[image]"
  {
    var joined := text + "\n" + "[image]";
    assert Join("\n", [text, "[image]"]) == joined;
    assert joined[0] == text[0];
    assert joined[|joined| - 1] == ']';
    StripUnpadded(joined);
  }

  /** The log parts of an image turn: the stripped text, then `[image]`. */
  lemma VisionLogParts(text: string, b64: string)
    requires !IsBlank(text)
    ensures FilterMap(LogPart, VisionParts(text, b64)) == [Strip(text), "[image]"]
  {
    var parts := VisionParts(text, b64);
    TextPartLog(text);
    ImagePartLog(b64);
    FilterMapPair(LogPart, parts[0], parts[1]);
    assert parts == [parts[0], parts[1]];
  }

  lemma TextPartLog(text: string)
    requires !IsBlank(text)
    ensures LogPart(JDict([("type", JStr("text")), ("text", JStr(text))])) == Some(Strip(text))
  {
    var item := JDict([("type", JStr("text")), ("text", JStr(text))]);
    LookupFirst(item.entries, "type", 0);
    LookupFirst(item.entries, "text", 1);
    TextTypeNormal();
    LogPartOfText(item, text);
  }

  lemma TextTypeNormal()
    ensures NormalText(JStr("text")) == "text"
  {
    var s := "text";
    assert TextOf(JStr(s)) == s;
    assert !IsSpace(s[0]) && !IsSpace(s[|s| - 1]);
    StripUnpadded(s);
    LowerText();
  }

  lemma LowerText()
    ensures Lower("text") == "text"
  {
    var s := "text";
    var l := Lower(s);
    forall i | 0 <= i < |s|
      ensures l[i] == s[i]
    {
      assert !('A' <= s[i] <= 'Z');
    }
  }

  /** A part of type `text` is logged as its stripped text. */
  lemma LogPartOfText(item: JValue, text: string)
    requires item.JDict? && NormalText(Get(item, "type")) == "text" && Get(item, "text") == JStr(text)
    requires !IsBlank(text)
    ensures LogPart(item) == Some(Strip(text))
  {
    assert TextOf(JStr(text)) == text;
  }

  lemma ImagePartLog(b64: string)
    ensures LogPart(JDict([("type", JStr("image_url")), ("image_url", JDict([("url", JStr(DataUrlPrefix + b64))]))]))
            == Some("[image]")
  {
    var item := JDict([("type", JStr("image_url")), ("image_url", JDict([("url", JStr(DataUrlPrefix + b64))]))]);
    LookupFirst(item.entries, "type", 0);
    ImageTypeNormal();
    LogPartOfImage(item);
  }

  /** A part of type `image_url` is logged as the marker alone. */
  lemma LogPartOfImage(item: JValue)
    requires item.JDict? && NormalText(Get(item, "type")) == "image_url"
    ensures LogPart(item) == Some("[image]")
  {
  }

  /** Filtering two kept elements keeps both, in order. */
  lemma FilterMapPair<A, B>(f: A -> Option<B>, a: A, b: A)
    requires f(a).Some? && f(b).Some?
    ensures FilterMap(f, [a, b]) == [f(a).value, f(b).value]
  {
    assert [a, b][..1] == [a];
    assert [a][..0] == [];
  }
}

=== FILE: vision_ingest.dfy ===
/** Akool "Vision Sense": participant camera frames are forwarded into the
    avatar's room at most `fps` times a second, only in RGB, and cut to
    exactly `width * height * 3` bytes. */
module VisionIngest {
  import opened Prelude
  import opened PyText

  /** A frame rate after the constructor's clamping. */
  type Fps = n: int | n >= 1 witness 1

  /** `max(1, int(vision_fps) if int(vision_fps) > 0 else 3)`. */
  function ClampFps(requested: int): (fps: Fps)
    ensures requested > 0 ==> fps == requested
    ensures requested <= 0 ==> fps == 3
  {
    if requested > 0 then requested else 3
  }

  /** Smallest spacing between two accepted frames, in seconds. */
  function MinInterval(fps: Fps): (r: real)
    ensures 0.0 < r <= 1.0
  {
    1.0 / (fps as real)
  }

  /** A `UserImageRawFrame`; `size` is `None` when it cannot be unpacked
      into a width and a height. */
  datatype ImageFrame = ImageFrame(size: Option<(int, int)>, format: string, image: seq<byte>)

  /** The publishing side of the processor: when the last frame was
      accepted (0.0 = never) and whether a local camera track is live. */
  datatype IngestState = IngestState(lastSent: real, trackLive: bool)

  const Fresh := IngestState(0.0, false)

  /** What became of one frame. */
  datatype Outcome =
    | Skipped       // vision off, avatar disabled, no room, or no size
    | Throttled     // too soon after the last accepted frame
    | WrongFormat   // not RGB / RGB24
    | NoImage       // empty pixel buffer
    | BadSize       // non-positive or too short for width * height * 3
    | NoTrack       // no camera track could be published
    | Captured(width: int, height: int, pixels: seq<byte>)

  datatype IngestStep = IngestStep(state: IngestState, outcome: Outcome)

  /** The pixel formats that are accepted (compared upper-cased). */
  predicate IsRgb(format: string)
  {
    Upper(format) == "RGB" || Upper(format) == "RGB24"
  }

  /** The frame passes the rate gate at time `now`. */
  predicate Admits(fps: Fps, lastSent: real, now: real)
  {
    lastSent == 0.0 || now - lastSent >= MinInterval(fps)
  }

  /** `ingest_user_image`. `now` is the event loop's clock (0.0 when it
      cannot be read) and `publishOk` says whether publishing a new camera
      track would succeed. */
  function Ingest(enabled: bool, fps: Fps, disabled: bool, roomUp: bool, st: IngestState,
                  frame: ImageFrame, now: real, publishOk: bool): (r: IngestStep)
    // The early gates leave everything as it was.
    ensures !enabled || disabled || !roomUp || frame.size.None? ==> r == IngestStep(st, Skipped)
    // The rate gate is checked before format and size, and only it keeps the clock.
    ensures enabled && !disabled && roomUp && frame.size.Some? ==>
              (r.outcome == Throttled <==> !Admits(fps, st.lastSent, now))
    ensures r.outcome == Throttled ==> r.state == st
    ensures r.outcome != Skipped && r.outcome != Throttled ==> r.state.lastSent == now
    // What is captured is an RGB frame cut to exactly width * height * 3 bytes.
    ensures r.outcome.Captured? ==>
              && frame.size == Some((r.outcome.width, r.outcome.height))
              && IsRgb(frame.format)
              && var expected := r.outcome.width * r.outcome.height * 3;
                 0 < expected <= |frame.image| && r.outcome.pixels == frame.image[..expected]
    // A frame that passes every check is captured whenever a track is live.
    ensures (enabled && !disabled && roomUp && frame.size.Some? && Admits(fps, st.lastSent, now)
             && IsRgb(frame.format) && r.state.trackLive
             && 0 < frame.size.value.0 * frame.size.value.1 * 3 <= |frame.image|) ==> r.outcome.Captured?
    // A track, once live, stays live.
    ensures st.trackLive ==> r.state.trackLive
  {
    if !enabled || disabled || !roomUp || frame.size.None? then IngestStep(st, Skipped)
    else if !Admits(fps, st.lastSent, now) then IngestStep(st, Throttled)
    else
      var stamped := st.(lastSent := now);
      var (w, h) := frame.size.value;
      var expected := w * h * 3;
      if !IsRgb(frame.format) then IngestStep(stamped, WrongFormat)
      else if |frame.image| == 0 then IngestStep(stamped, NoImage)
      else if expected <= 0 || |frame.image| < expected then IngestStep(stamped, BadSize)
      else
        var live := EnsureTrack(st.trackLive, w, h, publishOk);
        var next := stamped.(trackLive := live);
        if !live then IngestStep(next, NoTrack)
        else IngestStep(next, Captured(w, h, frame.image[..expected]))
  }

  /** `_ensure_vision_track`: keep a live track; otherwise publish one when
      both dimensions are positive. */
  function EnsureTrack(trackLive: bool, w: int, h: int, publishOk: bool): (live: bool)
    ensures trackLive ==> live
    ensures !trackLive && (w <= 0 || h <= 0) ==> !live
    // Without a track, positive dimensions publish one, which is live
    // exactly when publishing went through.
    ensures !trackLive && w > 0 && h > 0 ==> (live <==> publishOk)
  {
    if trackLive then true
    else if w <= 0 || h <= 0 then false
    else publishOk
  }

  /** Two frames accepted one after the other are at least `1/fps` seconds
      apart, unless the first was stamped at clock value 0.0. */
  lemma AcceptedFramesAreSpaced(enabled: bool, fps: Fps, disabled: bool, roomUp: bool,
                                st: IngestState, frame: ImageFrame, now: real, publishOk: bool)
    requires st.lastSent != 0.0
    requires Ingest(enabled, fps, disabled, roomUp, st, frame, now, publishOk).outcome.Captured?
    ensures now - st.lastSent >= MinInterval(fps)
  {
  }

  /** A frame shorter than `width * height * 3` bytes is never captured
      (a longer one is cut to that length, as `Ingest` states). */
  lemma CaptureLength(enabled: bool, fps: Fps, disabled: bool, roomUp: bool,
                      st: IngestState, frame: ImageFrame, now: real, publishOk: bool)
    requires frame.size.Some?
    requires |frame.image| < frame.size.value.0 * frame.size.value.1 * 3
    ensures !Ingest(enabled, fps, disabled, roomUp, st, frame, now, publishOk).outcome.Captured?
  {
  }
}
